=== FILE: README.md ===
# ai_roguelike turn core in Dafny

A model of the turn-based core of the `w1` roguelike: the NPC decision
library (`aiLibrary.h`, `aiLibrary.cpp`) and the turn resolution of
`roguelike.cpp` (`is_player_acted`, `upd_player_actions_count`, `move_pos`,
`process_actions`, `process_turn`).

The world is a `seq<Entity>` in query iteration order, and an entity's
index is its identity. Every entity has a `Position`, so `pos` is a plain
field; the tags `IsPlayer`, `IsPickup` and `IsMob` are booleans; every other
modelled component is an `Option` field of `Entity` (colour, texture, state
machine and player input are not part of the record). Every flecs query is a predicate
over those fields (module `EcsTypes`).
A phase is a pure fold over the sequence. The model follows flecs: a
component write inside `each` is immediate, but creating or destroying an
entity takes effect only when the phase's `defer` block ends.

Modules:

- `EcsTypes`: entity record, action codes, query predicates.
- `Geometry`: `sqr`, `dist_sq`, and the integer restatement of `dist <= r`.
- `AiLibrary`: `move_towards`, `inverse_move`, nearest-enemy search, what
  each state writes (`Act`), and the transition predicates as a closed tree
  evaluated by `Eval`.
- `Steering`: what those moves do to distances once `move_pos` applies them.
- `Movement`: the movement and melee scan, and the position commit.
- `Effects`: the healing and ranged phases. Both run through one scan. It
  is proved equal to a closed form: each combatant's hitpoints move by the
  sum of what every acting source gives it.
- `Lifecycle`: slime spawning, death cleanup, pickups, and the action
  reset.
- `Turn`: the player gate, the action quota with C++ `%`, and the
  composition of the phases. Includes the theorem that a turn leaves
  nobody at or below zero hitpoints.
- `Scenarios`: the entity factories, the initial world, and worked
  examples.

Points where the model follows the code as written:

- `process_actions` has seven phases. No phase updates hunger or fatigue
  counters, so the model has none.
- Healing is an area heal: every same-team combatant in range is healed,
  the healer itself included.
- The player-hitpoints predicate is true when any player is below the
  threshold.
- `MoveToPlayer` follows the last player in iteration order.

Other behaviour of the code that the model keeps:

- The spawn phase does not check whether the offspring's cell is free.
  `Lifecycle.SpawnMayShareCell` shows an offspring sharing a cell and a
  staged cell with another entity.
- Heals are applied before death cleanup, so an entity a melee blow has
  taken to zero hitpoints can be healed back above zero in the same turn.

## Model

| member | source | states |
|---|---|---|
| Geometry.Sqr | w1/aiLibrary.h:36-37 | a square is never negative and is zero exactly for zero |
| Geometry.DistSq | w1/aiLibrary.h:39-40 | squared distance is non-negative and zero exactly when the two cells coincide |
| Geometry.DistSqSymmetric | w1/aiLibrary.h:39-40 | squared distance does not depend on argument order |
| Geometry.DistSqTranslate | w1/aiLibrary.h:39-40 | shifting both cells by the same offset keeps the squared distance |
| Geometry.DistWithin | w1/aiLibrary.h:42-43 | for r >= 0 and s the non-negative root of the squared distance, s <= r holds exactly when the integer test `InRange` holds |
| Geometry.InRange | w1/aiLibrary.h:42-43 | the game's `dist(p, q) <= r` on integer cells: false for a negative range, otherwise `dist_sq(p, q) <= r * r` |
| Geometry.InRangeAxes | w1/aiLibrary.h:42-43 | a cell within range r of another differs from it by at most r along each axis |
| Geometry.InRangeMonotone | w1/aiLibrary.h:42-43 | a cell within range r1 is within every larger range |
| Geometry.InRangeSelf | w1/aiLibrary.h:42-43 | a cell is within every non-negative range of itself |
| AiLibrary.MoveTowards | w1/aiLibrary.cpp:39-47 | the step is always a movement code, horizontal when the horizontal gap is strictly larger, vertical otherwise |
| AiLibrary.MoveTowardsSamples | w1/aiLibrary.cpp:39-47 | gap (3,1) gives right, (1,3) down, (0,0) down, (-3,1) left, (1,-3) up |
| AiLibrary.InverseMove | w1/aiLibrary.cpp:49-55 | a movement code becomes a different movement code; every other code is left as it is |
| AiLibrary.InverseMoveInvolution | w1/aiLibrary.cpp:49-55 | inverting twice gives back the original code |
| AiLibrary.ClosestFrom | w1/aiLibrary.cpp:64-78 | the scan ends with a different-team entity at minimal distance, with no earlier enemy as close, or with none when no enemy exists |
| AiLibrary.ClosestEnemy | w1/aiLibrary.cpp:59-82 | no result exactly when the subject has no enemy; otherwise the first enemy at minimal distance |
| AiLibrary.NearestFirstUnique | w1/aiLibrary.cpp:72-77 | the first minimal-distance enemy is unique, so the strict `<` makes the choice deterministic |
| AiLibrary.LastPlayer | w1/aiLibrary.cpp:106-112 | the player the follower steps towards is the last player in iteration order; none when there is no player |
| AiLibrary.PatrolMove | w1/aiLibrary.cpp:159-163 | the random walk always draws a movement code |
| AiLibrary.PatrolMoveCoversMoves | w1/aiLibrary.cpp:159-163 | every movement code can be drawn |
| AiLibrary.Act | w1/aiLibrary.cpp:9-174 | attack and heal states write attack and heal; nop keeps the action; move-to-enemy and flee step towards or away from the nearest-first enemy and keep the action when there is none; move-to-player keeps the action without a player and otherwise steps towards the last player in iteration order; patrol always moves, towards the anchor when out of range |
| AiLibrary.FleeMirrorsMoveToEnemy | w1/aiLibrary.cpp:84-144 | for the same world and subject, fleeing writes the inverse of what moving to the enemy writes, or both keep the prior action |
| AiLibrary.MoveToPlayerFollowsPlayer | w1/aiLibrary.cpp:98-114 | with a single player, the follower writes the step towards that player |
| AiLibrary.AnyEnemyWithin | w1/aiLibrary.cpp:187-193 | the or-accumulating scan is true exactly when some different-team entity lies within range |
| AiLibrary.AnyAllyWithin | w1/aiLibrary.cpp:210-220 | the scan is true exactly when some other same-team entity lies within range |
| AiLibrary.AnyPlayerBelow | w1/aiLibrary.cpp:251-255 | the scan is true exactly when some player's hitpoints are strictly below the threshold |
| AiLibrary.Eval | w1/aiLibrary.cpp:176-299 | `isAvailable` of every transition predicate for one subject; a leaf that reads a component the subject lacks is false; what each leaf means is stated by the lemmas below |
| AiLibrary.EnemyAvailableIff | w1/aiLibrary.cpp:176-197 | enemy-available holds exactly when a different-team entity is within the trigger distance |
| AiLibrary.EnemyAvailableMonotone | w1/aiLibrary.cpp:176-197 | enemy-available at a distance implies it at every larger distance |
| AiLibrary.AllyAvailableIff | w1/aiLibrary.cpp:199-224 | ally-available holds exactly when another same-team entity is within the distance |
| AiLibrary.AllyAvailableIgnoresSelf | w1/aiLibrary.cpp:212-213 | the subject alone on its team never sees an ally, at any range |
| AiLibrary.HitpointsLessThanIff | w1/aiLibrary.cpp:226-240 | holds exactly when the subject has hitpoints strictly below the threshold |
| AiLibrary.HitpointsLessThanLocal | w1/aiLibrary.cpp:226-240 | the own-hitpoints test depends only on the subject's hitpoints, not on the rest of the world |
| AiLibrary.PlayerHitpointsLessThanIff | w1/aiLibrary.cpp:242-259 | holds exactly when some player has hitpoints strictly below the threshold, whoever the subject is |
| AiLibrary.EvalIgnoresActions | w1/aiLibrary.cpp:176-299 | no transition predicate reads a pending Action: rewriting any entity's action leaves every subject's transitions unchanged, so the order in which state machines write actions does not change any decision |
| AiLibrary.CombinatorLaws | w1/aiLibrary.cpp:261-299 | negation is `!`, conjunction is `&&`, double negation is the identity, De Morgan holds for a negated conjunction, and enemy-reachable is constantly false |
| Steering.InverseUndoesStep | w1/roguelike.cpp:312-323 | applying a code and then its inverse returns to the starting cell |
| Steering.StepApproaches | w1/aiLibrary.cpp:39-47 | from a cell other than the target, the step strictly reduces the squared distance to the target |
| Steering.FleeRetreats | w1/aiLibrary.cpp:137-142 | the flee step strictly increases the squared distance to the enemy, even from the enemy's own cell |
| Steering.PatrolRecovers | w1/aiLibrary.cpp:155-158 | a patroller outside its range moves strictly closer to its anchor |
| Movement.MovePos | w1/roguelike.cpp:312-323 | a movement code moves exactly one cell along its own axis and direction; every other code stays put |
| Movement.Collide | w1/roguelike.cpp:336-344 | reports a block exactly when another blocker has staged the target cell, and strikes exactly the different-team blockers of that cell |
| Movement.MoveOne | w1/roguelike.cpp:332-349 | a blocked mover gets NOP and keeps its stage; an unblocked one stages its target; only different-team blockers lose hitpoints, by the mover's melee damage; nothing else changes |
| Movement.MoveScan | w1/roguelike.cpp:332-349 | the scan changes only hitpoints, actions and stages; when staged cells start pairwise distinct and every entity with a MovePos is a blocker, they stay pairwise distinct |
| Movement.NeverIntoLaterStage | w1/roguelike.cpp:336-348 | when staged cells start pairwise distinct and every entity with a MovePos is a blocker, no mover claims a cell that a later entity had staged when the scan began |
| Movement.NoSwap | w1/roguelike.cpp:332-349 | when staged cells start pairwise distinct and every entity with a MovePos is a blocker, no two entities swap staged cells in one scan |
| Movement.Commit | w1/roguelike.cpp:351-354 | every mover's position becomes its staged cell, and other entities are untouched |
| Movement.MovementPhase | w1/roguelike.cpp:330-355 | after the phase every mover stands on its staged cell; non-movers do not move; only position, hitpoints, action and stage change |
| Movement.MoversEndOnDistinctCells | w1/roguelike.cpp:330-355 | with distinct stages to begin with, no two movers share a cell after the commit |
| Movement.IdleMoverNotDowngraded | w1/roguelike.cpp:334-348 | a mover that does not move and stands on its own distinct stage keeps its action |
| Effects.AreaScan | w1/roguelike.cpp:373-383 | each in-range target of the right team gains the amount exactly once; the scan reports whether any was reached |
| Effects.EmitterOf | w1/roguelike.cpp:363-396 | a healer acts exactly when it carries the healer components, its action is heal and its decremented cooldown is not positive; an archer acts exactly when its action is attack; an acting source emits from its own cell for its own team, to allies when healing and to other teams when shooting |
| Effects.Emit | w1/roguelike.cpp:363-408 | one source changes each combatant by exactly its contribution, and reports reach exactly when it acts on somebody |
| Effects.Step | w1/roguelike.cpp:363-408 | one source step, including the healer's cooldown tick or reset |
| Effects.Scan | w1/roguelike.cpp:363-408 | the outer scan visits sources in iteration order with immediate writes; an entity that is neither a combatant nor, in the healing phase, a healer comes out unchanged |
| Effects.HealingPhase | w1/roguelike.cpp:357-385 | the healing phase equals the snapshot closed form `Reference` |
| Effects.RangedPhase | w1/roguelike.cpp:387-409 | the ranged phase equals the snapshot closed form `Reference` |
| Effects.ScanMatchesReference | w1/roguelike.cpp:358-409 | the in-place scan equals the snapshot closed form: each combatant's hitpoints move by the summed contributions of all acting sources |
| Effects.HealCooldownTicks | w1/roguelike.cpp:365-382 | a healer's cooldown drops by one each tick and is reset to its configured value exactly when it heals somebody |
| Effects.SingleHealer | w1/roguelike.cpp:363-384 | with one acting healer, every same-team combatant in range, the healer included, gains the heal amount, and everyone else keeps their hitpoints |
| Effects.SingleArcher | w1/roguelike.cpp:392-408 | with one attacking archer, every different-team combatant in range loses the ranged damage; same-team combatants and other actions change nothing |
| Effects.QuietPhaseKeepsHitpoints | w1/roguelike.cpp:367-371 | when no source acts, no hitpoints change |
| Effects.RangedKeepsCooldowns | w1/roguelike.cpp:392-408 | the ranged phase never touches a cooldown |
| Effects.PhaseTouchesOnlyHitpointsAndCooldown | w1/roguelike.cpp:357-409 | both phases change only hitpoints and healer cooldowns and never add or remove a component |
| Lifecycle.NewSlime | w1/roguelike.cpp:135-150 | a new slime is a live mover and blocker on its own cell, staged there, and not a pickup |
| Lifecycle.Offspring | w1/roguelike.cpp:415-424 | the scan creates exactly one entity per spawning slime: each offspring record occurs exactly as many times as there are spawning slimes it is the offspring of |
| Lifecycle.OffspringTraced | w1/roguelike.cpp:415-424 | every created entity is the offspring of a spawning slime |
| Lifecycle.OffspringComplete | w1/roguelike.cpp:415-424 | every spawning slime's offspring is created |
| Lifecycle.SpawnPhase | w1/roguelike.cpp:411-425 | existing entities stay in place; one slime is appended per spawning slime, at (x-1, y-1), with each appended record occurring once per spawner that produces it; no other mob type spawns |
| Lifecycle.SpawnMayShareCell | w1/roguelike.cpp:423 | the offspring can land on, and stage, a cell another entity already holds |
| Lifecycle.Cleanup | w1/roguelike.cpp:427-435 | exactly the entities with hitpoints at or below zero are removed: every other record keeps its multiplicity |
| Lifecycle.CollectFrom | w1/roguelike.cpp:442-460 | every collecting player gains the heal amounts and powerups lying on its cell at the start of the phase; every other entity is unchanged |
| Lifecycle.Sweep | w1/roguelike.cpp:449-457 | exactly the pickups lying on a collector's cell are removed: every other record keeps its multiplicity |
| Lifecycle.PickupPhase | w1/roguelike.cpp:437-461 | the phase creates nothing (every survivor is an entity of the world or a player after collecting), leaves no pickup on a player's cell, keeps the multiplicity of every non-player that is not a pickup on a player's cell, and leaves each player record exactly as often as some player ended its collection as that record |
| Lifecycle.CollectorGains | w1/roguelike.cpp:442-460 | a player ends the phase with the amounts on its cell added to its hitpoints and melee damage, and its old record is gone unless some player's collected record equals it |
| Lifecycle.PickupsOnCollectorTaken | w1/roguelike.cpp:446-457 | every heal pickup and powerup on a player's cell is gone |
| Lifecycle.SinglePlayerOthersStay | w1/roguelike.cpp:446-457 | with one player, entities off its cell survive unchanged |
| Lifecycle.ResetActions | w1/roguelike.cpp:464-470 | every mover's action becomes NOP and nothing else changes |
| Turn.PlayerActed | w1/roguelike.cpp:289-298 | the turn happens only if some player carries an action other than NOP, and it does happen when there is a player and every player does |
| Turn.LastActingPlayer | w1/roguelike.cpp:293-296 | finds the last player carrying an action, or none |
| Turn.PlayerActedIff | w1/roguelike.cpp:289-298 | the turn flag holds exactly when the last acting player's action is not NOP |
| Turn.SinglePlayerActed | w1/roguelike.cpp:289-298 | with one player, the turn happens exactly when its action is not NOP |
| Turn.TruncRem | w1/roguelike.cpp:306 | the C++ remainder lies strictly within the divisor's magnitude and takes the dividend's sign |
| Turn.TruncDivision | w1/roguelike.cpp:306 | C++ quotient times divisor plus remainder gives back the dividend |
| Turn.TruncRemAgreement | w1/roguelike.cpp:306 | C++ and Euclidean remainders agree on non-negative dividends and differ on (-3) % 2 |
| Turn.Advance | w1/roguelike.cpp:306-307 | an in-range counter stays in [0, numActions) and wraps to 0 exactly when the increment reaches the quota |
| Turn.AdvanceCycle | w1/roguelike.cpp:306 | n ticks leave the counter at the start plus n, modulo the quota |
| Turn.WrapsEveryQuota | w1/roguelike.cpp:300-310 | from zero, the n-th tick wraps exactly when n is a multiple of the quota |
| Turn.QuotaTwoEverySecond | w1/roguelike.cpp:202 | with the player's quota of two, the NPCs plan on every second player action |
| Turn.CountFrom | w1/roguelike.cpp:300-310 | every quota holder ticks once; the result is true exactly when some holder wrapped |
| Turn.SinglePlayerPlans | w1/roguelike.cpp:300-310 | with one player, the NPCs plan exactly when this action completes the quota |
| Turn.ProcessActions | w1/roguelike.cpp:325-471 | after all phases every mover's pending action is NOP |
| Turn.ProcessTurn | w1/roguelike.cpp:473-491 | nothing changes unless the player acted, whatever the quotas hold; after a turn every mover's action is NOP |
| Turn.PlannerOnlyOnWrap | w1/roguelike.cpp:478-488 | the planner matters only on the turn that completes the quota |
| Turn.HealPickupSumNonNeg | w1/roguelike.cpp:444-451 | with non-negative heal pickups, the heal a player collects is non-negative |
| Turn.PickupKeepsAlive | w1/roguelike.cpp:437-461 | the pickup phase cannot kill anybody when heal amounts are non-negative |
| Turn.NoDeadAfterActions | w1/roguelike.cpp:325-471 | with non-negative heal pickups, no entity is left at or below zero hitpoints after `process_actions` |
| Turn.NoDeadAfterTurn | w1/roguelike.cpp:473-491 | a turn that happens leaves nobody dead, for any planner that only writes actions |
| Scenarios.Monster | w1/roguelike.cpp:118-133 | a fresh monster is an idle mover and blocker staged and anchored on its own cell, with a quota of one, that neither heals nor shoots |
| Scenarios.Archer | w1/roguelike.cpp:152-169 | a fresh archer is such a mob and an archer; it shoots nothing while idle and emits once its action is attack |
| Scenarios.Healer | w1/roguelike.cpp:171-189 | a fresh healer is such a mob of the player's team; its cooldown keeps it from healing on the first tick even with action heal |
| Scenarios.Player | w1/roguelike.cpp:191-205 | the player is an idle mover, blocker, collector and quota holder on its own cell, without a patrol anchor, with an in-range quota of two |
| Scenarios.HealPickup | w1/roguelike.cpp:207-214 | a heal pickup carries its amount and is not a mover, blocker, combatant, collector or healer |
| Scenarios.Powerup | w1/roguelike.cpp:216-223 | a powerup carries its amount and is not a mover, blocker, combatant or collector |
| Scenarios.InitialWorld | w1/roguelike.cpp:266-287 | the initial world has six entities: the only player at index 3, the two pickups last, and every other entity a mover and blocker |
| Scenarios.InitialStagesDistinct | w1/roguelike.cpp:266-287 | the initial world has pairwise distinct staged cells, and every entity with a stage is a blocker |
| Scenarios.InitialHealsAndQuotas | w1/roguelike.cpp:266-287 | the initial world's heal pickups are non-negative and its quotas are non-zero |
| Scenarios.InitialWorldIdle | w1/roguelike.cpp:266-287 | until the player picks an action, a turn on the initial world changes nothing |
| Scenarios.MeleeExample | w1/roguelike.cpp:332-354 | a player moving into a monster's cell stays put with action NOP, and the monster loses 50 hitpoints |
| Scenarios.HealingExample | w1/roguelike.cpp:363-384 | a ready healer next to a player at 50 brings the player to 65, itself to 115, and its cooldown back to 5 |
| Scenarios.HealerWaitsExample | w1/roguelike.cpp:365-368 | a healer whose cooldown is still running heals nobody and counts down |
| Scenarios.SpawnExample | w1/roguelike.cpp:415-424 | a spawning slime at (2,2) gains an offspring at (1,1) |
| Scenarios.PickupExample | w1/roguelike.cpp:442-451 | a player at 80 on a 20-point heal pickup ends at 100, and the pickup is gone |
| Scenarios.SharedCellCollectedRecord | w1/roguelike.cpp:442-451 | two players share a cell with a 20-point heal; the one at 80 collects into exactly the other's original record, which therefore survives the phase even though its own player collected too |

## Left out

- Keyboard input and rendering systems (`roguelike.cpp` 227-262) and `print_stats`: raylib I/O.
- flecs storage, archetype tables and `defer` mechanics. The world is a sequence in iteration order. For `Scenarios.InitialWorld` that order is creation order, while flecs iterates by archetype table. Only `InitialWorld`'s index-based ensures use creation order. The lemmas about the initial world state properties that do not refer to positions in the sequence: distinct stages, non-negative heals, non-zero quotas, and an idle player. The movement and effect theorems are stated for whatever iteration order the world sequence has.
- Float hitpoints, damage, ranges and `sqrtf` are integers. A range test is `dist_sq <= r*r`, which `Geometry.DistWithin` ties to the real square root. Every range the game uses is a whole number.
- `GetRandomValue` in the patrol state is the parameter `roll`. No distribution is modelled.
- `StateMachine::act`, `addState`, `addTransition` and `switchState` live in `stateMachine.cpp`, which is not part of this model. So are the nested-machine state `SMState` and the state-machine wiring of each archetype (`roguelike.cpp` 8-116). The planning step of `process_turn` is therefore the parameter `plan`.
- The factories declared but not defined in the shown files are not modelled: always, spawn-slime state, go-to, eat, sleep, dist-to-pos, hunger and fatigue.
- Manual `delete` of owned states and transitions: the predicate tree is a datatype.
- `debug` logging.
- C++ `int` width: coordinates, the quota counter and the heal cooldown are unbounded integers. `sqr` in `dist_sq` overflows for axis gaps beyond 46340, `pos.x++` and `pos.x--` in `move_pos` and `(curActions + 1) % numActions` overflow at the limits of `int`, and `cd.current -= 1` counts down without bound for a healer that never heals. The game keeps coordinates small, the quota counter stays below its quota, and a healer that never heals needs more than two billion turns to reach the limit, so the model does not wrap.
- AiLibrary.Act: requires the components the state reads (`CanAct`). In the source, `entity.insert` would default-construct a missing Action, Team or PatrolPos. The values of those defaults come from `ecsTypes.h`, which is not part of this model.
- Movement.MoversEndOnDistinctCells: also requires that every entity with a MovePos is a blocker (has Hitpoints and Team). Every archetype with a MovePos has both.
- Effects.SingleHealer and Effects.SingleArcher: state the per-target result for one acting source. Any number of sources is covered by Effects.ScanMatchesReference.
- Turn.NoDeadAfterTurn: assumes heal pickups carry non-negative amounts and that the planner writes only actions. Every factory does so.
- Turn.Advance and Turn.CountFrom: require non-zero quotas, and Turn.ProcessTurn requires them once a player has acted. A zero `numActions` makes `(curActions + 1) % numActions` undefined behaviour in C++, so the model does not say what happens then. Every factory sets a quota of one or two.
- Turn.ProcessTurn: the planner is any function from world to world. It runs inside `defer` in the source, so when its writes become visible to the other state machines is not modelled.

=== FILE: ai_library.dfy ===
/** The NPC decision library: the greedy step rule, the nearest-enemy search,
    the per-state action choice and the transition-predicate algebra.

    A state's `act` writes only the subject's pending action, so `Act` returns
    the new action, computed from the world, the subject's index and the
    action it held before. Transition predicates are a closed tree whose
    nodes own their children, evaluated by `Eval`. */
module AiLibrary {
  import opened EcsTypes
  import opened Geometry

  // ---------------------------------------------------------------------
  // Step rule
  // ---------------------------------------------------------------------

  /** `move_towards`: step along the axis with the larger gap; on a tie, or
      when the cells coincide, step vertically, down unless the target is
      above. */
  function MoveTowards(from: Pos, to: Pos): (r: Action)
    ensures IsMove(r)
    ensures Abs(to.x - from.x) > Abs(to.y - from.y) ==> r.MoveLeft? || r.MoveRight?
    ensures Abs(to.x - from.x) <= Abs(to.y - from.y) ==> r.MoveUp? || r.MoveDown?
  {
    var dx := to.x - from.x;
    var dy := to.y - from.y;
    if Abs(dx) > Abs(dy) then
      (if dx > 0 then MoveRight else MoveLeft)
    else
      (if dy < 0 then MoveUp else MoveDown)
  }

  /** `inverse_move`: mirror a movement code, leave every other code alone. */
  function InverseMove(a: Action): (r: Action)
    ensures IsMove(r) <==> IsMove(a)
    ensures IsMove(a) ==> r != a
    ensures !IsMove(a) ==> r == a
  {
    match a
    case MoveLeft => MoveRight
    case MoveRight => MoveLeft
    case MoveUp => MoveDown
    case MoveDown => MoveUp
    case _ => a
  }

  lemma InverseMoveInvolution(a: Action)
    ensures InverseMove(InverseMove(a)) == a
  {
  }

  /** The decisions the step rule makes on the sample gaps (3,1), (1,3) and
      (0,0) from the origin. */
  lemma MoveTowardsSamples()
    ensures MoveTowards(Pos(0, 0), Pos(3, 1)) == MoveRight
    ensures MoveTowards(Pos(0, 0), Pos(1, 3)) == MoveDown
    ensures MoveTowards(Pos(0, 0), Pos(0, 0)) == MoveDown
    ensures MoveTowards(Pos(0, 0), Pos(-3, 1)) == MoveLeft
    ensures MoveTowards(Pos(0, 0), Pos(1, -3)) == MoveUp
  {
  }

  // ---------------------------------------------------------------------
  // Nearest-enemy search
  // ---------------------------------------------------------------------

  /** A member of the (Position, Team) query on another team than `team`. */
  predicate IsEnemy(e: Entity, team: int)
  {
    e.team.Some? && e.team.value != team
  }

  /** `k` is an enemy at minimal distance from `origin`, and no enemy before it
      in iteration order is as close. */
  ghost predicate IsNearestFirst(w: seq<Entity>, origin: Pos, team: int, k: int)
  {
    && 0 <= k < |w|
    && IsEnemy(w[k], team)
    && (forall j :: 0 <= j < |w| && IsEnemy(w[j], team) ==> DistSq(w[k].pos, origin) <= DistSq(w[j].pos, origin))
    && (forall j :: 0 <= j < k && IsEnemy(w[j], team) ==> DistSq(w[j].pos, origin) > DistSq(w[k].pos, origin))
  }

  /** What the search has established after looking at the first `n` entities. */
  ghost predicate NearestAmong(w: seq<Entity>, origin: Pos, team: int, n: int, best: Option<nat>)
    requires 0 <= n <= |w|
  {
    match best
    case None => forall j :: 0 <= j < n ==> !IsEnemy(w[j], team)
    case Some(b) =>
      && b < n
      && IsEnemy(w[b], team)
      && (forall j :: 0 <= j < n && IsEnemy(w[j], team) ==> DistSq(w[b].pos, origin) <= DistSq(w[j].pos, origin))
      && (forall j :: 0 <= j < b && IsEnemy(w[j], team) ==> DistSq(w[j].pos, origin) > DistSq(w[b].pos, origin))
  }

  /** The scan of `on_closest_enemy_pos`: replace the candidate only when the
      next enemy is strictly closer. */
  function ClosestFrom(w: seq<Entity>, origin: Pos, team: int, j: nat, best: Option<nat>): (r: Option<nat>)
    requires j <= |w|
    requires NearestAmong(w, origin, team, j, best)
    ensures NearestAmong(w, origin, team, |w|, r)
    decreases |w| - j
  {
    if j == |w| then best
    else if IsEnemy(w[j], team) && (best.None? || DistSq(w[j].pos, origin) < DistSq(w[best.value].pos, origin)) then
      ClosestFrom(w, origin, team, j + 1, Some(j))
    else
      ClosestFrom(w, origin, team, j + 1, best)
  }

  /** The enemy the subject reacts to, if any. */
  function ClosestEnemy(w: seq<Entity>, self: nat): (r: Option<nat>)
    requires self < |w| && w[self].team.Some?
    ensures r.None? <==> forall j :: 0 <= j < |w| ==> !IsEnemy(w[j], w[self].team.value)
    ensures r.Some? ==> IsNearestFirst(w, w[self].pos, w[self].team.value, r.value)
  {
    ClosestFrom(w, w[self].pos, w[self].team.value, 0, None)
  }

  /** The nearest-first enemy is unique, so the search is deterministic. */
  lemma NearestFirstUnique(w: seq<Entity>, origin: Pos, team: int, k1: int, k2: int)
    requires IsNearestFirst(w, origin, team, k1)
    requires IsNearestFirst(w, origin, team, k2)
    ensures k1 == k2
  {
  }

  /** The player that `MoveToPlayerState` follows: every player overwrites the
      action in turn, so the last one in iteration order decides. */
  function LastPlayer(w: seq<Entity>, n: nat): (r: Option<nat>)
    requires n <= |w|
    ensures r.None? <==> forall j :: 0 <= j < n ==> !w[j].isPlayer
    ensures r.Some? ==> r.value < n && w[r.value].isPlayer
    ensures r.Some? ==> forall j :: r.value < j < n ==> !w[j].isPlayer
  {
    if n == 0 then None
    else if w[n - 1].isPlayer then Some(n - 1)
    else LastPlayer(w, n - 1)
  }

  // ---------------------------------------------------------------------
  // States
  // ---------------------------------------------------------------------

  /** The random walk draws one of the four movement codes; `roll` stands for
      the draw. */
  function PatrolMove(roll: int): (r: Action)
    ensures IsMove(r)
  {
    match roll % 4
    case 0 => MoveLeft
    case 1 => MoveRight
    case 2 => MoveDown
    case _ => MoveUp
  }

  /** Every movement code is a possible outcome of the random walk. */
  lemma PatrolMoveCoversMoves(a: Action)
    requires IsMove(a)
    ensures exists roll :: 0 <= roll < 4 && PatrolMove(roll) == a
  {
    if a.MoveLeft? {
      assert PatrolMove(0) == a;
    } else if a.MoveRight? {
      assert PatrolMove(1) == a;
    } else if a.MoveDown? {
      assert PatrolMove(2) == a;
    } else {
      assert PatrolMove(3) == a;
    }
  }

  /** The leaf states. A nested-machine state is not part of this model. */
  datatype State =
    | AttackEnemy
    | MoveToEnemy
    | MoveToPlayer
    | Healing
    | FleeFromEnemy
    | Patrol(patrolDist: int)
    | NopState

  /** The components a state reads from its subject: every state the prior
      Action; the enemy states the subject's Team; the patrol state its
      PatrolPos. The attack, heal, nop and move-to-player states read no
      other component of the subject. */
  predicate CanAct(s: State, e: Entity)
  {
    && e.action.Some?
    && ((s.MoveToEnemy? || s.FleeFromEnemy?) ==> e.team.Some?)
    && (s.Patrol? ==> e.patrolPos.Some?)
  }

  /** The action a state writes for subject `self`; `roll` is the random draw
      the patrol state consumes. */
  function Act(s: State, w: seq<Entity>, self: nat, roll: int): (r: Action)
    requires self < |w| && CanAct(s, w[self])
    ensures s.AttackEnemy? ==> r == Attack
    ensures s.Healing? ==> r == Heal
    ensures s.NopState? ==> r == w[self].action.value
    ensures (s.MoveToEnemy? || s.FleeFromEnemy?) && (forall j :: 0 <= j < |w| ==> !IsEnemy(w[j], w[self].team.value))
            ==> r == w[self].action.value
    ensures s.MoveToEnemy? && (exists j :: 0 <= j < |w| && IsEnemy(w[j], w[self].team.value))
            ==> exists k :: IsNearestFirst(w, w[self].pos, w[self].team.value, k) && r == MoveTowards(w[self].pos, w[k].pos)
    ensures s.FleeFromEnemy? && (exists j :: 0 <= j < |w| && IsEnemy(w[j], w[self].team.value))
            ==> exists k :: IsNearestFirst(w, w[self].pos, w[self].team.value, k) && r == InverseMove(MoveTowards(w[self].pos, w[k].pos))
    ensures s.MoveToPlayer? && (forall j :: 0 <= j < |w| ==> !w[j].isPlayer) ==> r == w[self].action.value
    ensures s.MoveToPlayer? ==>
              forall k :: 0 <= k < |w| && w[k].isPlayer && (forall j :: k < j < |w| ==> !w[j].isPlayer)
                          ==> r == MoveTowards(w[self].pos, w[k].pos)
    ensures s.Patrol? ==> IsMove(r)
    ensures s.Patrol? && !InRange(w[self].pos, w[self].patrolPos.value, s.patrolDist)
            ==> r == MoveTowards(w[self].pos, w[self].patrolPos.value)
  {
    var e := w[self];
    var prior := e.action.value;
    match s
    case AttackEnemy => Attack
    case Healing => Heal
    case NopState => prior
    case MoveToEnemy =>
      (match ClosestEnemy(w, self)
       case None => prior
       case Some(k) => MoveTowards(e.pos, w[k].pos))
    case FleeFromEnemy =>
      (match ClosestEnemy(w, self)
       case None => prior
       case Some(k) => InverseMove(MoveTowards(e.pos, w[k].pos)))
    case MoveToPlayer =>
      (match LastPlayer(w, |w|)
       case None => prior
       case Some(k) => MoveTowards(e.pos, w[k].pos))
    case Patrol(d) =>
      if !InRange(e.pos, e.patrolPos.value, d) then MoveTowards(e.pos, e.patrolPos.value)
      else PatrolMove(roll)
  }

  /** Fleeing writes exactly the mirror of what moving to the enemy writes,
      for the same world and subject. */
  lemma FleeMirrorsMoveToEnemy(w: seq<Entity>, self: nat, roll: int)
    requires self < |w| && CanAct(FleeFromEnemy, w[self])
    ensures Act(FleeFromEnemy, w, self, roll) == InverseMove(Act(MoveToEnemy, w, self, roll))
            || (Act(FleeFromEnemy, w, self, roll) == w[self].action.value && Act(MoveToEnemy, w, self, roll) == w[self].action.value)
  {
  }

  /** With a unique player, the follower steps towards that player. */
  lemma MoveToPlayerFollowsPlayer(w: seq<Entity>, self: nat, p: nat, roll: int)
    requires self < |w| && CanAct(MoveToPlayer, w[self])
    requires p < |w| && w[p].isPlayer
    requires forall j :: 0 <= j < |w| && j != p ==> !w[j].isPlayer
    ensures Act(MoveToPlayer, w, self, roll) == MoveTowards(w[self].pos, w[p].pos)
  {
    var k := LastPlayer(w, |w|);
    assert k.Some?;
  }

  // ---------------------------------------------------------------------
  // Transition predicates
  // ---------------------------------------------------------------------

  /** The closed set of transition predicates. `Negate` and `And` own their
      operands; the tree has no sharing. */
  datatype Pred =
    | EnemyAvailable(triggerDist: int)
    | AllyAvailable(allyDist: int)
    | HitpointsLessThan(threshold: int)
    | PlayerHitpointsLessThan(playerThreshold: int)
    | EnemyReachable
    | Negate(inner: Pred)
    | And(lhs: Pred, rhs: Pred)

  /** The `|=` scan of the enemy-available predicate over entities `j..`. */
  function AnyEnemyWithin(w: seq<Entity>, origin: Pos, team: int, dist: int, j: nat): (b: bool)
    requires j <= |w|
    ensures b <==> exists k :: j <= k < |w| && IsEnemy(w[k], team) && InRange(w[k].pos, origin, dist)
    decreases |w| - j
  {
    if j == |w| then false
    else (IsEnemy(w[j], team) && InRange(w[j].pos, origin, dist)) || AnyEnemyWithin(w, origin, team, dist, j + 1)
  }

  /** The ally scan: same team, not the subject itself. */
  predicate IsAllyOf(w: seq<Entity>, self: nat, k: nat)
    requires self < |w| && k < |w| && w[self].team.Some?
  {
    k != self && w[k].team == w[self].team
  }

  function AnyAllyWithin(w: seq<Entity>, self: nat, dist: int, j: nat): (b: bool)
    requires self < |w| && j <= |w| && w[self].team.Some?
    ensures b <==> exists k :: j <= k < |w| && IsAllyOf(w, self, k) && InRange(w[k].pos, w[self].pos, dist)
    decreases |w| - j
  {
    if j == |w| then false
    else (IsAllyOf(w, self, j) && InRange(w[j].pos, w[self].pos, dist)) || AnyAllyWithin(w, self, dist, j + 1)
  }

  /** The scan over (IsPlayer, Hitpoints). */
  function AnyPlayerBelow(w: seq<Entity>, threshold: int, j: nat): (b: bool)
    requires j <= |w|
    ensures b <==> exists k :: j <= k < |w| && w[k].isPlayer && w[k].hp.Some? && w[k].hp.value < threshold
    decreases |w| - j
  {
    if j == |w| then false
    else (w[j].isPlayer && w[j].hp.Some? && w[j].hp.value < threshold) || AnyPlayerBelow(w, threshold, j + 1)
  }

  /** `isAvailable` of every predicate, for subject `self`. A subject without
      the components a leaf reads makes that leaf false. */
  function Eval(p: Pred, w: seq<Entity>, self: nat): bool
    requires self < |w|
  {
    match p
    case EnemyAvailable(d) =>
      w[self].team.Some? && AnyEnemyWithin(w, w[self].pos, w[self].team.value, d, 0)
    case AllyAvailable(d) =>
      w[self].team.Some? && AnyAllyWithin(w, self, d, 0)
    case HitpointsLessThan(t) =>
      w[self].hp.Some? && w[self].hp.value < t
    case PlayerHitpointsLessThan(t) =>
      AnyPlayerBelow(w, t, 0)
    case EnemyReachable => false
    case Negate(q) => !Eval(q, w, self)
    case And(l, r) => Eval(l, w, self) && Eval(r, w, self)
  }

  lemma EnemyAvailableIff(w: seq<Entity>, self: nat, d: int)
    requires self < |w| && w[self].team.Some?
    ensures Eval(EnemyAvailable(d), w, self)
            <==> exists k :: 0 <= k < |w| && IsEnemy(w[k], w[self].team.value) && InRange(w[k].pos, w[self].pos, d)
  {
  }

  /** Seeing an enemy within `d1` means seeing one within any `d2 >= d1`. */
  lemma EnemyAvailableMonotone(w: seq<Entity>, self: nat, d1: int, d2: int)
    requires self < |w| && d1 <= d2
    ensures Eval(EnemyAvailable(d1), w, self) ==> Eval(EnemyAvailable(d2), w, self)
  {
    if Eval(EnemyAvailable(d1), w, self) {
      var k :| 0 <= k < |w| && IsEnemy(w[k], w[self].team.value) && InRange(w[k].pos, w[self].pos, d1);
      InRangeMonotone(w[k].pos, w[self].pos, d1, d2);
    }
  }

  lemma AllyAvailableIff(w: seq<Entity>, self: nat, d: int)
    requires self < |w| && w[self].team.Some?
    ensures Eval(AllyAvailable(d), w, self)
            <==> exists k :: 0 <= k < |w| && k != self && w[k].team == w[self].team && InRange(w[k].pos, w[self].pos, d)
  {
  }

  /** The subject never counts as its own ally, whatever the range. */
  lemma AllyAvailableIgnoresSelf(w: seq<Entity>, self: nat, d: int)
    requires self < |w| && w[self].team.Some?
    requires forall k :: 0 <= k < |w| && k != self ==> w[k].team != w[self].team
    ensures !Eval(AllyAvailable(d), w, self)
  {
  }

  lemma HitpointsLessThanIff(w: seq<Entity>, self: nat, t: int)
    requires self < |w|
    ensures Eval(HitpointsLessThan(t), w, self) <==> w[self].hp.Some? && w[self].hp.value < t
  {
  }

  /** The player-hitpoints test ignores the subject: it reads the player. */
  lemma PlayerHitpointsLessThanIff(w: seq<Entity>, self: nat, t: int)
    requires self < |w|
    ensures Eval(PlayerHitpointsLessThan(t), w, self)
            <==> exists k :: 0 <= k < |w| && w[k].isPlayer && w[k].hp.Some? && w[k].hp.value < t
  {
  }

  /** The subject's own-hitpoints test reads nothing but the subject's
      Hitpoints: two subjects with equal hitpoints, in any two worlds, agree. */
  lemma HitpointsLessThanLocal(w: seq<Entity>, self: nat, v: seq<Entity>, other: nat, t: int)
    requires self < |w| && other < |v| && w[self].hp == v[other].hp
    ensures Eval(HitpointsLessThan(t), w, self) == Eval(HitpointsLessThan(t), v, other)
  {
  }

  /** No transition reads a pending Action: when one state machine writes an
      entity's action, every other entity's transitions are unaffected. */
  lemma {:induction false} EvalIgnoresActions(p: Pred, w: seq<Entity>, self: nat, k: nat, a: Option<Action>)
    requires self < |w| && k < |w|
    ensures Eval(p, w[k := w[k].(action := a)], self) == Eval(p, w, self)
  {
    var v := w[k := w[k].(action := a)];
    assert forall j :: 0 <= j < |w| ==> v[j].team == w[j].team && v[j].pos == w[j].pos
                                        && v[j].hp == w[j].hp && v[j].isPlayer == w[j].isPlayer;
    match p
    case EnemyAvailable(d) =>
    case AllyAvailable(d) =>
    case HitpointsLessThan(t) =>
    case PlayerHitpointsLessThan(t) =>
    case EnemyReachable =>
    case Negate(q) =>
      EvalIgnoresActions(q, w, self, k, a);
    case And(l, r) =>
      EvalIgnoresActions(l, w, self, k, a);
      EvalIgnoresActions(r, w, self, k, a);
  }

  lemma CombinatorLaws(p: Pred, q: Pred, w: seq<Entity>, self: nat)
    requires self < |w|
    ensures Eval(Negate(p), w, self) == !Eval(p, w, self)
    ensures Eval(And(p, q), w, self) == (Eval(p, w, self) && Eval(q, w, self))
    ensures Eval(Negate(Negate(p)), w, self) == Eval(p, w, self)
    ensures Eval(Negate(And(p, q)), w, self) == (Eval(Negate(p), w, self) || Eval(Negate(q), w, self))
    ensures !Eval(And(EnemyReachable, q), w, self)
    ensures Eval(Negate(EnemyReachable), w, self)
  {
  }
}

=== FILE: ecs_types.dfy ===
/** Entity records and the attribute-presence tests that stand in for the
    world store's queries.

    Every entity of the roguelike is a record whose optional fields are the
    components it may or may not carry. A query over a set of components is
    modelled as a predicate that holds exactly when all of them are present;
    the world is a sequence of entities in the store's iteration order, and an
    entity's identity is its index. Hitpoints, damage, ranges and amounts are
    floats in the game and integers here. */
module EcsTypes {

  datatype Option<T> = None | Some(value: T)

  /** A grid cell (`Position`, `MovePos` and `PatrolPos` all share this shape). */
  datatype Pos = Pos(x: int, y: int)

  /** Pending action codes. */
  datatype Action = Nop | MoveLeft | MoveRight | MoveDown | MoveUp | Attack | Heal | Spawn

  /** The four movement codes, the range that the random walk draws from. */
  predicate IsMove(a: Action)
  {
    a.MoveLeft? || a.MoveRight? || a.MoveDown? || a.MoveUp?
  }

  datatype MobType = Human | Slime | Archer | Healer | Crafter

  /** `HealCooldown`: the counter and the value it is reset to after a heal. */
  datatype Cooldown = Cooldown(current: int, cooldown: int)

  /** `NumActions`: the per-turn quota and the progress counter. */
  datatype Quota = Quota(numActions: int, curActions: int)

  datatype Entity = Entity(
    pos: Pos,
    movePos: Option<Pos>,
    patrolPos: Option<Pos>,
    hp: Option<int>,
    action: Option<Action>,
    team: Option<int>,
    meleeDamage: Option<int>,
    rangedDamage: Option<int>,
    rangedRange: Option<int>,
    healAmount: Option<int>,
    healRange: Option<int>,
    healCooldown: Option<Cooldown>,
    numActions: Option<Quota>,
    mobType: Option<MobType>,
    powerupAmount: Option<int>,
    isPlayer: bool,
    isPickup: bool,
    isMob: bool
  )

  // ---------------------------------------------------------------------
  // Queries of the turn resolution, one predicate per component set.
  // ---------------------------------------------------------------------

  /** Action, Position, MovePos, MeleeDamage, Team: the entities whose pending
      action the movement scan resolves and the reset clears. */
  predicate Mover(e: Entity)
  {
    e.action.Some? && e.movePos.Some? && e.meleeDamage.Some? && e.team.Some?
  }

  /** MovePos, Hitpoints, Team: the entities a mover can bump into. */
  predicate Blocker(e: Entity)
  {
    e.movePos.Some? && e.hp.Some? && e.team.Some?
  }

  /** Position, Team, Hitpoints: the entities that heals and arrows reach. */
  predicate Combatant(e: Entity)
  {
    e.team.Some? && e.hp.Some?
  }

  /** Team, Action, HealAmount, HealRange, HealCooldown, Position. */
  predicate HealerQ(e: Entity)
  {
    e.team.Some? && e.action.Some? && e.healAmount.Some? && e.healRange.Some? && e.healCooldown.Some?
  }

  /** RangedDamage, RangedAttackRange, Action, Team, Position. */
  predicate ArcherQ(e: Entity)
  {
    e.rangedDamage.Some? && e.rangedRange.Some? && e.action.Some? && e.team.Some?
  }

  /** MobType, Action, Position. */
  predicate MobQ(e: Entity)
  {
    e.mobType.Some? && e.action.Some?
  }

  /** IsPlayer, Position, Hitpoints, MeleeDamage: who collects pickups. */
  predicate CollectorQ(e: Entity)
  {
    e.isPlayer && e.hp.Some? && e.meleeDamage.Some?
  }

  /** IsPickup, Position, HealAmount. */
  predicate HealPickupQ(e: Entity)
  {
    e.isPickup && e.healAmount.Some?
  }

  /** IsPickup, Position, PowerupAmount. */
  predicate PowerupQ(e: Entity)
  {
    e.isPickup && e.powerupAmount.Some?
  }

  /** An entity carrying Hitpoints at or below zero. */
  predicate Dead(e: Entity)
  {
    e.hp.Some? && e.hp.value <= 0
  }
}

=== FILE: effects.dfy ===
/** The healing and ranged-attack phases of `process_actions`.

    Both phases visit their sources in iteration order; a source that acts
    adds a fixed amount to the hitpoints of every combatant (Team, Hitpoints)
    it reaches: heals go to the healer's own team within heal range, the
    healer included; arrows go to every other team within attack range.
    Hitpoint writes are immediate, but no source's decision reads hitpoints,
    so the in-place scan equals a closed form: every combatant's hitpoints
    move by the sum of the amounts of the sources that reach it
    (`ScanMatchesReference`). A healer's cooldown drops by one every tick and
    is reset to its configured value when its heal reached anybody. */
module Effects {
  import opened EcsTypes
  import opened Geometry

  /** What an acting source does: add `delta` to every combatant of team
      `team` (when `toAllies`) or of any other team (otherwise) within
      `range` of `origin`. */
  datatype Emitter = Emitter(team: int, origin: Pos, range: int, delta: int, toAllies: bool)

  predicate Affects(em: Emitter, e: Entity)
  {
    Combatant(e) && ((e.team.value == em.team) == em.toAllies) && InRange(em.origin, e.pos, em.range)
  }

  function Apply(em: Emitter, e: Entity): Entity
    requires e.hp.Some?
  {
    e.(hp := Some(e.hp.value + em.delta))
  }

  /** The inner scan over targets `j..`; also reports whether anybody was
      reached. */
  function AreaScan(w: seq<Entity>, em: Emitter, j: nat): (r: (seq<Entity>, bool))
    requires j <= |w|
    ensures |r.0| == |w|
    ensures r.1 <==> exists k :: j <= k < |w| && Affects(em, w[k])
    ensures forall k :: 0 <= k < |w| ==> r.0[k] == (if j <= k && Affects(em, w[k]) then Apply(em, w[k]) else w[k])
    decreases |w| - j
  {
    if j == |w| then (w, false)
    else
      var e := if Affects(em, w[j]) then Apply(em, w[j]) else w[j];
      var w1 := w[j := e];
      var rest := AreaScan(w1, em, j + 1);
      assert forall k :: j + 1 <= k < |w| ==> w1[k] == w[k];
      (rest.0, Affects(em, w[j]) || rest.1)
  }

  datatype Phase = Healing | Ranged

  /** The effect of source `e` in phase `p`, if it acts this tick. A healer
      acts when its decremented cooldown is not positive and its action is
      heal; an archer acts when its action is attack. */
  function EmitterOf(p: Phase, e: Entity): (r: Option<Emitter>)
    ensures r.Some? ==> r.value.origin == e.pos && e.team == Some(r.value.team)
    ensures r.Some? ==> (r.value.toAllies <==> p.Healing?)
    ensures p.Healing? ==>
              (r.Some? <==> HealerQ(e) && e.action == Some(Heal) && e.healCooldown.value.current <= 1)
    ensures p.Ranged? ==> (r.Some? <==> ArcherQ(e) && e.action == Some(Attack))
  {
    match p
    case Healing =>
      if HealerQ(e) && e.healCooldown.value.current - 1 <= 0 && e.action.value == Heal
      then Some(Emitter(e.team.value, e.pos, e.healRange.value, e.healAmount.value, true))
      else None
    case Ranged =>
      if ArcherQ(e) && e.action.value == Attack
      then Some(Emitter(e.team.value, e.pos, e.rangedRange.value, -e.rangedDamage.value, false))
      else None
  }

  /** Source `w[i]` acts and reaches at least one combatant. */
  predicate Reaches(p: Phase, w: seq<Entity>, i: nat)
    requires i < |w|
  {
    EmitterOf(p, w[i]).Some? && exists k :: 0 <= k < |w| && Affects(EmitterOf(p, w[i]).value, w[k])
  }

  /** The cooldown after the healer's step. */
  function TickedCooldown(cd: Cooldown, healed: bool): Cooldown
  {
    cd.(current := if healed then cd.cooldown else cd.current - 1)
  }

  /** The hitpoint change source `src` inflicts on `tgt`. */
  function Contribution(p: Phase, src: Entity, tgt: Entity): int
  {
    match EmitterOf(p, src)
    case Some(em) => if Affects(em, tgt) then em.delta else 0
    case None => 0
  }

  /** A combatant after a hitpoint change of `d`; other entities are not
      touched. */
  function Gain(e: Entity, d: int): Entity
  {
    if Combatant(e) then e.(hp := Some(e.hp.value + d)) else e
  }

  /** The inner scan of source `i`, if it acts; reports whether it reached
      anybody. */
  function Emit(p: Phase, w: seq<Entity>, i: nat): (r: (seq<Entity>, bool))
    requires i < |w|
    ensures |r.0| == |w|
    ensures r.1 == Reaches(p, w, i)
    ensures forall k :: 0 <= k < |w| ==> r.0[k] == Gain(w[k], Contribution(p, w[i], w[k]))
  {
    match EmitterOf(p, w[i])
    case Some(em) => AreaScan(w, em, 0)
    case None => (w, false)
  }

  /** One iteration of the outer scan: source `i`, then its cooldown. */
  function Step(p: Phase, w: seq<Entity>, i: nat): (r: seq<Entity>)
    requires i < |w|
    ensures |r| == |w|
    ensures forall k :: 0 <= k < |w| && k != i ==> r[k] == Gain(w[k], Contribution(p, w[i], w[k]))
    ensures r[i] == (var e := Gain(w[i], Contribution(p, w[i], w[i]));
                     if p.Healing? && HealerQ(w[i])
                     then e.(healCooldown := Some(TickedCooldown(w[i].healCooldown.value, Reaches(p, w, i))))
                     else e)
  {
    var c := Emit(p, w, i);
    if p.Healing? && HealerQ(w[i]) then
      c.0[i := c.0[i].(healCooldown := Some(TickedCooldown(w[i].healCooldown.value, c.1)))]
    else c.0
  }

  /** The outer scan over sources `i..`. */
  function Scan(p: Phase, w: seq<Entity>, i: nat): (r: seq<Entity>)
    requires i <= |w|
    ensures |r| == |w|
    ensures forall k :: 0 <= k < |w| && !Combatant(w[k]) && !(p.Healing? && HealerQ(w[k])) ==> r[k] == w[k]
    decreases |w| - i
  {
    if i == |w| then w
    else
      StepKeepsView(p, w, i);
      Scan(p, Step(p, w, i), i + 1)
  }

  /** The healing phase; it computes the snapshot closed form. */
  function HealingPhase(w: seq<Entity>): (r: seq<Entity>)
    ensures r == Reference(Healing, w)
  {
    ScanMatchesReference(Healing, w);
    Scan(Healing, w, 0)
  }

  /** The ranged phase; it computes the snapshot closed form. */
  function RangedPhase(w: seq<Entity>): (r: seq<Entity>)
    ensures r == Reference(Ranged, w)
  {
    ScanMatchesReference(Ranged, w);
    Scan(Ranged, w, 0)
  }

  // ---------------------------------------------------------------------
  // Closed form
  // ---------------------------------------------------------------------

  /** The total change sources `from..` inflict on entity `k`. */
  function Influence(p: Phase, w: seq<Entity>, from: nat, k: nat): int
    requires from <= |w| && k < |w|
    decreases |w| - from
  {
    if from == |w| then 0
    else Contribution(p, w[from], w[k]) + Influence(p, w, from + 1, k)
  }

  /** Entity `k` once sources `from..` have acted. */
  function Settled(p: Phase, w: seq<Entity>, from: nat, k: nat): Entity
    requires from <= |w| && k < |w|
  {
    var e := Gain(w[k], Influence(p, w, from, k));
    if p.Healing? && HealerQ(w[k]) && from <= k
    then e.(healCooldown := Some(TickedCooldown(w[k].healCooldown.value, Reaches(p, w, k))))
    else e
  }

  /** The phase as a snapshot computation over the world before it. */
  function Reference(p: Phase, w: seq<Entity>): (r: seq<Entity>)
    ensures |r| == |w|
    ensures forall k :: 0 <= k < |w| ==> r[k] == Settled(p, w, 0, k)
  {
    seq(|w|, k requires 0 <= k < |w| => Settled(p, w, 0, k))
  }

  /** Influence only looks at the sources' effects and the target's team,
      cell and whether it has hitpoints. */
  lemma {:induction false} InfluenceCongruent(p: Phase, w: seq<Entity>, w': seq<Entity>, from: nat, k: nat)
    requires |w| == |w'| && from <= |w| && k < |w|
    requires forall h :: from <= h < |w| ==> EmitterOf(p, w[h]) == EmitterOf(p, w'[h])
    requires w[k].team == w'[k].team && w[k].pos == w'[k].pos && (w[k].hp.Some? <==> w'[k].hp.Some?)
    ensures Influence(p, w, from, k) == Influence(p, w', from, k)
    decreases |w| - from
  {
    if from < |w| {
      InfluenceCongruent(p, w, w', from + 1, k);
    }
  }

  /** A hitpoint change is invisible to everything a source decision reads. */
  lemma GainKeepsView(p: Phase, e: Entity, d: int)
    ensures EmitterOf(p, Gain(e, d)) == EmitterOf(p, e)
    ensures HealerQ(Gain(e, d)) == HealerQ(e)
    ensures Gain(e, d).healCooldown == e.healCooldown
    ensures Gain(e, d).team == e.team && Gain(e, d).pos == e.pos && Combatant(Gain(e, d)) == Combatant(e)
  {
  }

  /** Two hitpoint changes in a row are one change by their sum. */
  lemma GainAdd(e: Entity, a: int, b: int)
    ensures Gain(Gain(e, a), b) == Gain(e, a + b)
  {
  }

  /** A source step keeps everything the later sources' decisions and reach
      read. */
  lemma StepKeepsView(p: Phase, w: seq<Entity>, i: nat)
    requires i < |w|
    ensures forall h :: 0 <= h < |w| && h != i ==> EmitterOf(p, Step(p, w, i)[h]) == EmitterOf(p, w[h])
    ensures forall h :: 0 <= h < |w| ==>
              var e := Step(p, w, i)[h];
              e.team == w[h].team && e.pos == w[h].pos && Combatant(e) == Combatant(w[h])
  {
    var w1 := Step(p, w, i);
    forall h | 0 <= h < |w|
      ensures h != i ==> EmitterOf(p, w1[h]) == EmitterOf(p, w[h])
      ensures w1[h].team == w[h].team && w1[h].pos == w[h].pos && Combatant(w1[h]) == Combatant(w[h])
    {
      GainKeepsView(p, w[h], Contribution(p, w[i], w[h]));
    }
  }

  /** One source step followed by the closed form of the rest is the closed
      form from that source on, entity by entity. */
  lemma SettledStep(p: Phase, w: seq<Entity>, i: nat, k: nat)
    requires i < |w| && k < |w|
    ensures Settled(p, Step(p, w, i), i + 1, k) == Settled(p, w, i, k)
  {
    var w1 := Step(p, w, i);
    StepKeepsView(p, w, i);
    InfluenceCongruent(p, w, w1, i + 1, k);
    var c := Contribution(p, w[i], w[k]);
    var rest := Influence(p, w, i + 1, k);
    assert Influence(p, w, i, k) == c + rest;
    GainKeepsView(p, w[k], c);
    GainAdd(w[k], c, rest);
    if k > i && p.Healing? && HealerQ(w[k]) {
      ReachesKept(p, w, i, k);
    }
  }

  /** A later healer reaches the same targets after an earlier source step. */
  lemma ReachesKept(p: Phase, w: seq<Entity>, i: nat, k: nat)
    requires i < k < |w|
    ensures Reaches(p, Step(p, w, i), k) == Reaches(p, w, k)
  {
    var w1 := Step(p, w, i);
    StepKeepsView(p, w, i);
    if EmitterOf(p, w[k]).Some? {
      var em := EmitterOf(p, w[k]).value;
      assert forall t :: 0 <= t < |w| ==> (Affects(em, w1[t]) <==> Affects(em, w[t]));
    }
  }

  /** The in-place scan from source `i` on equals the closed form. */
  lemma {:induction false} ScanEffect(p: Phase, w: seq<Entity>, i: nat)
    requires i <= |w|
    ensures forall k :: 0 <= k < |w| ==> Scan(p, w, i)[k] == Settled(p, w, i, k)
    decreases |w| - i
  {
    if i == |w| {
      forall k | 0 <= k < |w|
        ensures Scan(p, w, i)[k] == Settled(p, w, i, k)
      {
        assert Influence(p, w, i, k) == 0;
      }
    } else {
      var w1 := Step(p, w, i);
      ScanEffect(p, w1, i + 1);
      assert Scan(p, w, i) == Scan(p, w1, i + 1);
      forall k | 0 <= k < |w|
        ensures Scan(p, w, i)[k] == Settled(p, w, i, k)
      {
        SettledStep(p, w, i, k);
      }
    }
  }

  /** The scan as written computes the snapshot reference. */
  lemma ScanMatchesReference(p: Phase, w: seq<Entity>)
    ensures Scan(p, w, 0) == Reference(p, w)
  {
    ScanEffect(p, w, 0);
  }

  // ---------------------------------------------------------------------
  // Consequences
  // ---------------------------------------------------------------------

  /** With a single acting source, every combatant moves by exactly that
      source's contribution. */
  lemma {:induction false} InfluenceSingle(p: Phase, w: seq<Entity>, from: nat, k: nat, s: nat)
    requires from <= s < |w| && k < |w|
    requires forall h :: from <= h < |w| && h != s ==> EmitterOf(p, w[h]).None?
    ensures Influence(p, w, from, k) == Contribution(p, w[s], w[k])
    decreases |w| - from
  {
    if from < |w| {
      if from == s {
        InfluenceNone(p, w, from + 1, k);
      } else {
        InfluenceSingle(p, w, from + 1, k, s);
      }
    }
  }

  lemma {:induction false} InfluenceNone(p: Phase, w: seq<Entity>, from: nat, k: nat)
    requires from <= |w| && k < |w|
    requires forall h :: from <= h < |w| ==> EmitterOf(p, w[h]).None?
    ensures Influence(p, w, from, k) == 0
    decreases |w| - from
  {
    if from < |w| {
      InfluenceNone(p, w, from + 1, k);
    }
  }

  /** A heal happens when the decremented cooldown is not positive, the
      action is heal, and some same-team combatant is within range. */
  predicate Heals(w: seq<Entity>, h: nat)
    requires h < |w| && HealerQ(w[h])
  {
    && w[h].healCooldown.value.current - 1 <= 0
    && w[h].action.value == Heal
    && exists k :: 0 <= k < |w| && Combatant(w[k]) && w[k].team == w[h].team
                   && InRange(w[h].pos, w[k].pos, w[h].healRange.value)
  }

  /** Every healer's cooldown drops by one per tick, and is reset to its
      configured value exactly when it heals. */
  lemma HealCooldownTicks(w: seq<Entity>, h: nat)
    requires h < |w| && HealerQ(w[h])
    ensures HealingPhase(w)[h].healCooldown
            == Some(w[h].healCooldown.value.(current := if Heals(w, h) then w[h].healCooldown.value.cooldown
                                                           else w[h].healCooldown.value.current - 1))
  {
    ScanMatchesReference(Healing, w);
    if EmitterOf(Healing, w[h]).Some? {
      var em := EmitterOf(Healing, w[h]).value;
      assert forall k :: 0 <= k < |w| ==>
        (Affects(em, w[k]) <==> Combatant(w[k]) && w[k].team == w[h].team && InRange(w[h].pos, w[k].pos, w[h].healRange.value));
    }
  }

  /** With one healer acting, every combatant of its team within its range,
      the healer itself included, gains the heal amount; every other
      combatant keeps its hitpoints. */
  lemma SingleHealer(w: seq<Entity>, h: nat)
    requires h < |w|
    requires forall j :: 0 <= j < |w| && j != h ==> EmitterOf(Healing, w[j]).None?
    ensures forall k :: 0 <= k < |w| && Combatant(w[k]) ==>
              HealingPhase(w)[k].hp
              == Some(w[k].hp.value
                      + (if EmitterOf(Healing, w[h]).Some? && w[k].team == w[h].team
                            && InRange(w[h].pos, w[k].pos, w[h].healRange.value)
                         then w[h].healAmount.value else 0))
  {
    ScanMatchesReference(Healing, w);
    forall k | 0 <= k < |w| && Combatant(w[k])
      ensures Influence(Healing, w, 0, k)
              == (if EmitterOf(Healing, w[h]).Some? && w[k].team == w[h].team
                     && InRange(w[h].pos, w[k].pos, w[h].healRange.value)
                  then w[h].healAmount.value else 0)
    {
      InfluenceSingle(Healing, w, 0, k, h);
    }
  }

  /** With one archer attacking, every combatant of another team within its
      range loses the ranged damage; same-team combatants are never hit. */
  lemma SingleArcher(w: seq<Entity>, a: nat)
    requires a < |w|
    requires forall j :: 0 <= j < |w| && j != a ==> EmitterOf(Ranged, w[j]).None?
    ensures forall k :: 0 <= k < |w| && Combatant(w[k]) ==>
              RangedPhase(w)[k].hp
              == Some(w[k].hp.value
                      - (if ArcherQ(w[a]) && w[a].action.value == Attack && w[k].team != w[a].team
                            && InRange(w[a].pos, w[k].pos, w[a].rangedRange.value)
                         then w[a].rangedDamage.value else 0))
  {
    ScanMatchesReference(Ranged, w);
    forall k | 0 <= k < |w| && Combatant(w[k])
      ensures Influence(Ranged, w, 0, k)
              == -(if ArcherQ(w[a]) && w[a].action.value == Attack && w[k].team != w[a].team
                      && InRange(w[a].pos, w[k].pos, w[a].rangedRange.value)
                   then w[a].rangedDamage.value else 0)
    {
      InfluenceSingle(Ranged, w, 0, k, a);
    }
  }

  /** A tick with no acting source leaves all hitpoints as they were: healers
      that do not heal and archers that do not attack change nobody. */
  lemma QuietPhaseKeepsHitpoints(p: Phase, w: seq<Entity>)
    requires forall j :: 0 <= j < |w| ==> EmitterOf(p, w[j]).None?
    ensures forall k :: 0 <= k < |w| ==> Scan(p, w, 0)[k].hp == w[k].hp
  {
    ScanMatchesReference(p, w);
    forall k | 0 <= k < |w|
      ensures Scan(p, w, 0)[k].hp == w[k].hp
    {
      InfluenceNone(p, w, 0, k);
    }
  }

  /** The ranged phase never touches a cooldown. */
  lemma RangedKeepsCooldowns(w: seq<Entity>)
    ensures forall k :: 0 <= k < |w| ==> RangedPhase(w)[k].healCooldown == w[k].healCooldown
  {
    ScanMatchesReference(Ranged, w);
  }

  /** Both phases change hitpoints and healer cooldowns and nothing else:
      no entity moves, changes team, or loses or gains a component. */
  lemma PhaseTouchesOnlyHitpointsAndCooldown(p: Phase, w: seq<Entity>)
    ensures |Scan(p, w, 0)| == |w|
    ensures forall k :: 0 <= k < |w| ==>
              Scan(p, w, 0)[k].(hp := w[k].hp, healCooldown := w[k].healCooldown) == w[k]
    ensures forall k :: 0 <= k < |w| ==>
              (Scan(p, w, 0)[k].hp.Some? <==> w[k].hp.Some?) && (Scan(p, w, 0)[k].healCooldown.Some? <==> w[k].healCooldown.Some?)
  {
    ScanMatchesReference(p, w);
    forall k | 0 <= k < |w|
      ensures Scan(p, w, 0)[k].(hp := w[k].hp, healCooldown := w[k].healCooldown) == w[k]
      ensures (Scan(p, w, 0)[k].hp.Some? <==> w[k].hp.Some?) && (Scan(p, w, 0)[k].healCooldown.Some? <==> w[k].healCooldown.Some?)
    {
      SettledFrame(p, w, k);
    }
  }

  lemma SettledFrame(p: Phase, w: seq<Entity>, k: nat)
    requires k < |w|
    ensures var e := Settled(p, w, 0, k);
            && e.(hp := w[k].hp, healCooldown := w[k].healCooldown) == w[k]
            && (e.hp.Some? <==> w[k].hp.Some?) && (e.healCooldown.Some? <==> w[k].healCooldown.Some?)
  {
  }
}

=== FILE: geometry.dfy ===
/** The integer-grid helpers `sqr`, `dist_sq` and `dist`.

    The game compares `dist`, a float square root, against float ranges. On a
    grid with integer ranges the comparison `dist(p, q) <= r` is exactly
    `dist_sq(p, q) <= r * r` for `r >= 0` (and always false for `r < 0`), which
    is what `InRange` states; `DistWithin` proves the two agree for the real
    square root. */
module Geometry {
  import opened EcsTypes

  function Abs(a: int): nat
  {
    if a < 0 then -a else a
  }

  function Sqr(a: int): (r: int)
    ensures r >= 0
    ensures r == 0 <==> a == 0
  {
    a * a
  }

  function DistSq(p: Pos, q: Pos): (r: int)
    ensures r >= 0
    ensures r == 0 <==> p == q
  {
    Sqr(p.x - q.x) + Sqr(p.y - q.y)
  }

  /** A square exceeds the square of every smaller non-negative bound on
      the magnitude. */
  lemma SqrAbove(a: int, r: int)
    requires 0 <= r < Abs(a)
    ensures r * r < Sqr(a)
  {
    var m := Abs(a);
    assert m * m == a * a;
    assert r * r <= r * m;
    assert r * m < m * m;
  }

  /** `dist(p, q) <= r`, over the integers. */
  predicate InRange(p: Pos, q: Pos, r: int)
  {
    r >= 0 && DistSq(p, q) <= r * r
  }

  /** Being within range bounds each axis gap by the range. */
  lemma InRangeAxes(p: Pos, q: Pos, r: int)
    requires InRange(p, q, r)
    ensures Abs(p.x - q.x) <= r && Abs(p.y - q.y) <= r
  {
    if Abs(p.x - q.x) > r {
      SqrAbove(p.x - q.x, r);
    }
    if Abs(p.y - q.y) > r {
      SqrAbove(p.y - q.y, r);
    }
  }

  lemma DistSqSymmetric(p: Pos, q: Pos)
    ensures DistSq(p, q) == DistSq(q, p)
  {
    assert Sqr(p.x - q.x) == Sqr(q.x - p.x);
    assert Sqr(p.y - q.y) == Sqr(q.y - p.y);
  }

  /** Translating both cells by the same offset keeps their distance. */
  lemma DistSqTranslate(p: Pos, q: Pos, dx: int, dy: int)
    ensures DistSq(Pos(p.x + dx, p.y + dy), Pos(q.x + dx, q.y + dy)) == DistSq(p, q)
  {
  }

  lemma RealSquareMonotone(a: real, b: real)
    requires 0.0 <= a <= b
    ensures a * a <= b * b
  {
    assert a * a <= a * b;
    assert a * b <= b * b;
  }

  lemma RealSquareStrict(a: real, b: real)
    requires 0.0 <= a < b
    ensures a * a < b * b
  {
    calc {
      a * a;
    <= a * b;
    < { assert (b - a) * b > 0.0; }
      b * b;
    }
  }

  /** For any non-negative real `s` with `s * s == dist_sq(p, q)` (that is,
      `s == dist(p, q)`), the float comparison `s <= r` against an integer
      range is the integer test `InRange(p, q, r)`. */
  lemma DistWithin(p: Pos, q: Pos, r: int, s: real)
    requires 0.0 <= s && s * s == DistSq(p, q) as real
    ensures s <= r as real <==> InRange(p, q, r)
  {
    var rr := r as real;
    if r < 0 {
      assert !(s <= rr);
    } else {
      assert (r * r) as real == rr * rr;
      if s <= rr {
        RealSquareMonotone(s, rr);
      } else {
        RealSquareStrict(rr, s);
      }
    }
  }

  /** Widening a range never loses a cell. */
  lemma InRangeMonotone(p: Pos, q: Pos, r1: int, r2: int)
    requires r1 <= r2
    ensures InRange(p, q, r1) ==> InRange(p, q, r2)
  {
    if r1 >= 0 {
      assert r1 * r1 <= r1 * r2;
      assert r1 * r2 <= r2 * r2;
    }
  }

  /** A cell is within every non-negative range of itself. */
  lemma InRangeSelf(p: Pos, r: int)
    requires r >= 0
    ensures InRange(p, p, r)
  {
  }
}

=== FILE: lifecycle.dfy ===
/** The phases of `process_actions` that create and destroy entities, and
    the final action reset: slime spawning, death cleanup, pickups.

    Creation and destruction are deferred to the end of their phase, so each
    phase decides on the world as it was when the phase began. */
module Lifecycle {
  import opened EcsTypes

  // ---------------------------------------------------------------------
  // Spawning
  // ---------------------------------------------------------------------

  /** A slime whose pending action is spawn. */
  predicate SpawnsSlime(e: Entity)
  {
    MobQ(e) && e.mobType.value == Slime && e.action.value == Spawn
  }

  /** `create_slime(x, y)`: a fresh hostile slime with 80 hitpoints and 10
      melee damage, staged and anchored on its own cell. Its state machine is
      not part of this model. */
  function NewSlime(x: int, y: int): (e: Entity)
    ensures e.mobType == Some(Slime) && e.pos == Pos(x, y) && e.movePos == Some(e.pos)
    ensures Mover(e) && Blocker(e) && Combatant(e) && !Dead(e) && !e.isPickup
  {
    Entity(
      pos := Pos(x, y),
      movePos := Some(Pos(x, y)),
      patrolPos := Some(Pos(x, y)),
      hp := Some(80),
      action := Some(Nop),
      team := Some(1),
      meleeDamage := Some(10),
      rangedDamage := None,
      rangedRange := None,
      healAmount := None,
      healRange := None,
      healCooldown := None,
      numActions := Some(Quota(1, 0)),
      mobType := Some(Slime),
      powerupAmount := None,
      isPlayer := false,
      isPickup := false,
      isMob := true)
  }

  /** The offspring of a spawning slime: one cell up and to the left. */
  function OffspringOf(e: Entity): Entity
  {
    NewSlime(e.pos.x - 1, e.pos.y - 1)
  }

  function CountSpawners(w: seq<Entity>, j: nat): nat
    requires j <= |w|
    decreases |w| - j
  {
    if j == |w| then 0 else (if SpawnsSlime(w[j]) then 1 else 0) + CountSpawners(w, j + 1)
  }

  /** How many spawning slimes among `j..` have offspring `e`. */
  function SpawnersOf(w: seq<Entity>, j: nat, e: Entity): nat
    requires j <= |w|
    decreases |w| - j
  {
    if j == |w| then 0
    else (if SpawnsSlime(w[j]) && OffspringOf(w[j]) == e then 1 else 0) + SpawnersOf(w, j + 1, e)
  }

  /** The entities created by the scan over `j..`, in order: each record as
      many times as there are spawners it is the offspring of. */
  function Offspring(w: seq<Entity>, j: nat): (r: seq<Entity>)
    requires j <= |w|
    ensures |r| == CountSpawners(w, j)
    ensures forall e :: multiset(r)[e] == SpawnersOf(w, j, e)
    decreases |w| - j
  {
    if j == |w| then []
    else (if SpawnsSlime(w[j]) then [OffspringOf(w[j])] else []) + Offspring(w, j + 1)
  }

  /** Every offspring has a spawning parent at or after `j`. */
  lemma {:induction false} OffspringTraced(w: seq<Entity>, j: nat, m: nat)
    requires j <= |w| && m < |Offspring(w, j)|
    ensures exists k :: j <= k < |w| && SpawnsSlime(w[k]) && Offspring(w, j)[m] == OffspringOf(w[k])
    decreases |w| - j
  {
    var head := if SpawnsSlime(w[j]) then [OffspringOf(w[j])] else [];
    var rest := Offspring(w, j + 1);
    assert Offspring(w, j) == head + rest;
    if m < |head| {
      assert Offspring(w, j)[m] == OffspringOf(w[j]);
    } else {
      OffspringTraced(w, j + 1, m - |head|);
      assert Offspring(w, j)[m] == rest[m - |head|];
    }
  }

  /** Every spawning slime at or after `j` has its offspring in the scan. */
  lemma {:induction false} OffspringComplete(w: seq<Entity>, j: nat, k: nat)
    requires j <= k < |w| && SpawnsSlime(w[k])
    ensures OffspringOf(w[k]) in Offspring(w, j)
    decreases k - j
  {
    var head := if SpawnsSlime(w[j]) then [OffspringOf(w[j])] else [];
    var rest := Offspring(w, j + 1);
    assert Offspring(w, j) == head + rest;
    if k == j {
      assert Offspring(w, j)[0] == OffspringOf(w[k]);
    } else {
      OffspringComplete(w, j + 1, k);
    }
  }

  /** `e` stands one cell up and left of a slime of `w` whose action is
      spawn. */
  ghost predicate SpawnedBy(w: seq<Entity>, e: Entity)
  {
    exists k :: 0 <= k < |w| && w[k].mobType == Some(Slime) && w[k].action == Some(Spawn)
                && e.pos == Pos(w[k].pos.x - 1, w[k].pos.y - 1)
  }

  /** The spawn phase appends the offspring after the existing entities. */
  function SpawnPhase(w: seq<Entity>): (r: seq<Entity>)
    ensures |r| == |w| + CountSpawners(w, 0)
    ensures r[..|w|] == w
    ensures forall m :: |w| <= m < |r| ==> r[m].mobType == Some(Slime) && !r[m].isPickup
    ensures forall m :: |w| <= m < |r| ==> SpawnedBy(w, r[m])
    ensures forall k :: 0 <= k < |w| && SpawnsSlime(w[k]) ==> OffspringOf(w[k]) in r[|w|..]
    ensures forall e :: multiset(r[|w|..])[e] == SpawnersOf(w, 0, e)
  {
    var kids := Offspring(w, 0);
    var r := w + kids;
    assert r[|w|..] == kids;
    forall m | |w| <= m < |r|
      ensures r[m].mobType == Some(Slime) && !r[m].isPickup
      ensures SpawnedBy(w, r[m])
    {
      assert r[m] == kids[m - |w|];
      OffspringTraced(w, 0, m - |w|);
      var k :| 0 <= k < |w| && SpawnsSlime(w[k]) && kids[m - |w|] == OffspringOf(w[k]);
    }
    forall k | 0 <= k < |w| && SpawnsSlime(w[k])
      ensures OffspringOf(w[k]) in r[|w|..]
    {
      OffspringComplete(w, 0, k);
    }
    r
  }

  /** The spawn phase does not look for a free cell: the offspring can land
      on a cell another entity already occupies and has staged. */
  lemma SpawnMayShareCell()
    ensures var slime := NewSlime(2, 2).(action := Some(Spawn));
            var other := NewSlime(1, 1);
            var r := SpawnPhase([slime, other]);
            |r| == 3 && r[2].pos == r[1].pos && r[2].movePos == r[1].movePos
  {
    var slime := NewSlime(2, 2).(action := Some(Spawn));
    var other := NewSlime(1, 1);
    assert SpawnsSlime(slime) && !SpawnsSlime(other);
    assert Offspring([slime, other], 0) == [NewSlime(1, 1)];
  }

  // ---------------------------------------------------------------------
  // Death cleanup
  // ---------------------------------------------------------------------

  function CountDead(w: seq<Entity>): nat
  {
    if |w| == 0 then 0 else (if Dead(w[0]) then 1 else 0) + CountDead(w[1..])
  }

  /** Destroy every entity with hitpoints at or below zero. */
  function Cleanup(w: seq<Entity>): (r: seq<Entity>)
    ensures |r| == |w| - CountDead(w)
    ensures forall e :: e in r ==> e in w && !Dead(e)
    ensures forall k :: 0 <= k < |w| && !Dead(w[k]) ==> w[k] in r
    ensures forall e :: multiset(r)[e] == (if Dead(e) then 0 else multiset(w)[e])
  {
    if |w| == 0 then []
    else
      var rest := Cleanup(w[1..]);
      assert w == [w[0]] + w[1..];
      assert forall k :: 1 <= k < |w| ==> w[k] == w[1..][k - 1];
      if Dead(w[0]) then rest else [w[0]] + rest
  }

  // ---------------------------------------------------------------------
  // Pickups
  // ---------------------------------------------------------------------

  /** Heal-pickup amounts lying on `cell`, over entities `j..`. */
  function HealPickupSum(w: seq<Entity>, cell: Pos, j: nat): int
    requires j <= |w|
    decreases |w| - j
  {
    if j == |w| then 0
    else (if HealPickupQ(w[j]) && w[j].pos == cell then w[j].healAmount.value else 0) + HealPickupSum(w, cell, j + 1)
  }

  /** Powerup amounts lying on `cell`, over entities `j..`. */
  function PowerupSum(w: seq<Entity>, cell: Pos, j: nat): int
    requires j <= |w|
    decreases |w| - j
  {
    if j == |w| then 0
    else (if PowerupQ(w[j]) && w[j].pos == cell then w[j].powerupAmount.value else 0) + PowerupSum(w, cell, j + 1)
  }

  /** What the pickup sums read of an entity. */
  predicate SamePickupView(a: Entity, b: Entity)
  {
    a.pos == b.pos && a.isPickup == b.isPickup && a.healAmount == b.healAmount && a.powerupAmount == b.powerupAmount
  }

  lemma {:induction false} PickupSumsCongruent(w: seq<Entity>, w': seq<Entity>, cell: Pos, j: nat)
    requires |w| == |w'| && j <= |w|
    requires forall k :: j <= k < |w| ==> SamePickupView(w[k], w'[k])
    ensures HealPickupSum(w, cell, j) == HealPickupSum(w', cell, j)
    ensures PowerupSum(w, cell, j) == PowerupSum(w', cell, j)
    decreases |w| - j
  {
    if j < |w| {
      PickupSumsCongruent(w, w', cell, j + 1);
    }
  }

  /** Collector `w[c]` after taking everything lying on its cell. */
  function Collected(w: seq<Entity>, c: nat): Entity
    requires c < |w| && CollectorQ(w[c])
  {
    w[c].(hp := Some(w[c].hp.value + HealPickupSum(w, w[c].pos, 0)),
          meleeDamage := Some(w[c].meleeDamage.value + PowerupSum(w, w[c].pos, 0)))
  }

  /** The outer scan over collectors `i..`, writing in place. */
  function CollectFrom(w: seq<Entity>, i: nat): (r: seq<Entity>)
    requires i <= |w|
    ensures |r| == |w|
    ensures forall k :: 0 <= k < |w| ==> r[k] == (if i <= k && CollectorQ(w[k]) then Collected(w, k) else w[k])
    decreases |w| - i
  {
    if i == |w| then w
    else
      var w1 := if CollectorQ(w[i]) then w[i := Collected(w, i)] else w;
      PickupSumsCongruent(w, w1, w[i].pos, 0);
      forall k | 0 <= k < |w|
        ensures CollectorQ(w1[k]) == CollectorQ(w[k]) && w1[k].pos == w[k].pos
      {
      }
      forall k | i < k < |w| && CollectorQ(w[k])
        ensures Collected(w1, k) == Collected(w, k)
      {
        PickupSumsCongruent(w, w1, w[k].pos, 0);
      }
      CollectFrom(w1, i + 1)
  }

  /** The cells of all collectors. */
  function CollectorCells(w: seq<Entity>): set<Pos>
  {
    set k | 0 <= k < |w| && CollectorQ(w[k]) :: w[k].pos
  }

  /** A pickup lying on one of `cells`. */
  predicate TakenAt(e: Entity, cells: set<Pos>)
  {
    (HealPickupQ(e) || PowerupQ(e)) && e.pos in cells
  }

  /** Destroy the pickups lying on `cells`. */
  function Sweep(w: seq<Entity>, cells: set<Pos>): (r: seq<Entity>)
    ensures |r| <= |w|
    ensures forall e :: e in r ==> e in w && !TakenAt(e, cells)
    ensures forall k :: 0 <= k < |w| && !TakenAt(w[k], cells) ==> w[k] in r
    ensures forall e :: multiset(r)[e] == (if TakenAt(e, cells) then 0 else multiset(w)[e])
  {
    if |w| == 0 then []
    else
      var rest := Sweep(w[1..], cells);
      assert w == [w[0]] + w[1..];
      assert forall k :: 1 <= k < |w| ==> w[k] == w[1..][k - 1];
      if TakenAt(w[0], cells) then rest else [w[0]] + rest
  }

  /** The pickup phase: players collect first, the collected pickups are
      destroyed when the phase ends. Nothing is created: every survivor is
      an entity of the world or a player after collecting. No pickup is left
      on a player's cell, and every non-player keeps its multiplicity unless
      it is a pickup on a player's cell (`CollectorGains` covers the
      players). */
  function PickupPhase(w: seq<Entity>): (r: seq<Entity>)
    ensures |r| <= |w|
    ensures forall e :: e in r ==> e in w || exists c :: 0 <= c < |w| && CollectorQ(w[c]) && e == Collected(w, c)
    ensures forall e :: e in r ==> !TakenAt(e, CollectorCells(w))
    ensures forall k :: 0 <= k < |w| && !CollectorQ(w[k]) && !TakenAt(w[k], CollectorCells(w)) ==> w[k] in r
    ensures forall e :: !CollectorQ(e) ==>
              multiset(r)[e] == (if TakenAt(e, CollectorCells(w)) then 0 else multiset(w)[e])
    ensures forall e :: CollectorQ(e) && !e.isPickup ==> multiset(r)[e] == CollectedCount(w, 0, e)
  {
    var c := CollectFrom(w, 0);
    var r := Sweep(c, CollectorCells(w));
    forall e | e in r
      ensures e in w || exists j :: 0 <= j < |w| && CollectorQ(w[j]) && e == Collected(w, j)
    {
      var k :| 0 <= k < |c| && c[k] == e;
    }
    CollectKeepsOthers(w, c);
    CollectorsCounted(w, c, 0);
    r
  }

  /** How many collectors among `j..` end the collection as record `e`. */
  function CollectedCount(w: seq<Entity>, j: nat, e: Entity): nat
    requires j <= |w|
    decreases |w| - j
  {
    if j == |w| then 0
    else (if CollectorQ(w[j]) && Collected(w, j) == e then 1 else 0) + CollectedCount(w, j + 1, e)
  }

  /** After collection, each collector record occurs once per collector that
      ended as it. */
  lemma {:induction false} CollectorsCounted(w: seq<Entity>, c: seq<Entity>, j: nat)
    requires |c| == |w| && j <= |w|
    requires forall k :: 0 <= k < |w| ==> c[k] == (if CollectorQ(w[k]) then Collected(w, k) else w[k])
    ensures forall e :: CollectorQ(e) ==> multiset(c[j..])[e] == CollectedCount(w, j, e)
    decreases |w| - j
  {
    if j < |w| {
      CollectorsCounted(w, c, j + 1);
      assert c[j..] == [c[j]] + c[j + 1..];
    }
  }

  /** A pointwise rewrite that only touches collectors, and keeps them
      collectors, keeps the multiplicity of every non-collector. */
  lemma {:induction false} CollectKeepsOthers(w: seq<Entity>, c: seq<Entity>)
    requires |c| == |w|
    requires forall k :: 0 <= k < |w| ==> if CollectorQ(w[k]) then CollectorQ(c[k]) else c[k] == w[k]
    ensures forall e :: !CollectorQ(e) ==> multiset(c)[e] == multiset(w)[e]
  {
    if |w| > 0 {
      CollectKeepsOthers(w[1..], c[1..]);
      assert w == [w[0]] + w[1..];
      assert c == [c[0]] + c[1..];
    }
  }

  /** Exactly one collector: the collector cells are its cell. */
  lemma OneCollectorCell(w: seq<Entity>, p: nat)
    requires p < |w| && CollectorQ(w[p])
    requires forall k :: 0 <= k < |w| && k != p ==> !CollectorQ(w[k])
    ensures CollectorCells(w) == {w[p].pos}
  {
  }

  /** Each collector gains the amounts of every heal pickup and every
      powerup lying on its cell when the phase began. */
  lemma CollectorGains(w: seq<Entity>, p: nat)
    requires p < |w| && CollectorQ(w[p]) && !w[p].isPickup
    ensures Collected(w, p) in PickupPhase(w)
    ensures (forall c :: 0 <= c < |w| && CollectorQ(w[c]) ==> Collected(w, c) != w[p]) ==> w[p] !in PickupPhase(w)
  {
    var c := CollectFrom(w, 0);
    assert c[p] == Collected(w, p);
    assert !TakenAt(Collected(w, p), CollectorCells(w));
    SweepKeeps(c, CollectorCells(w), p);
  }

  /** An entity that is not a pickup on one of the cells survives the sweep. */
  lemma SweepKeeps(w: seq<Entity>, cells: set<Pos>, k: nat)
    requires k < |w| && !TakenAt(w[k], cells)
    ensures w[k] in Sweep(w, cells)
  {
  }

  /** Every pickup on a collector's cell is destroyed. */
  lemma PickupsOnCollectorTaken(w: seq<Entity>, k: nat, c: nat)
    requires k < |w| && c < |w| && CollectorQ(w[c])
    requires (HealPickupQ(w[k]) || PowerupQ(w[k])) && w[k].pos == w[c].pos
    ensures w[k] !in PickupPhase(w)
  {
    assert w[c].pos in CollectorCells(w);
    assert TakenAt(w[k], CollectorCells(w));
  }

  /** With one player, an entity off the player's cell, and not itself a
      collector, survives the phase unchanged. */
  lemma SinglePlayerOthersStay(w: seq<Entity>, p: nat, k: nat)
    requires p < |w| && CollectorQ(w[p])
    requires forall j :: 0 <= j < |w| && j != p ==> !CollectorQ(w[j])
    requires k < |w| && k != p && w[k].pos != w[p].pos
    ensures w[k] in PickupPhase(w)
  {
    var c := CollectFrom(w, 0);
    OneCollectorCell(w, p);
    assert c[k] == w[k];
    SweepKeeps(c, CollectorCells(w), k);
  }

  // ---------------------------------------------------------------------
  // Reset
  // ---------------------------------------------------------------------

  /** Every mover's pending action goes back to NOP. */
  function ResetActions(w: seq<Entity>): (r: seq<Entity>)
    ensures |r| == |w|
    ensures forall k :: 0 <= k < |w| ==> (Mover(r[k]) <==> Mover(w[k]))
    ensures forall k :: 0 <= k < |w| && Mover(w[k]) ==> r[k].action == Some(Nop)
    ensures forall k :: 0 <= k < |w| ==> r[k].(action := w[k].action) == w[k]
  {
    seq(|w|, k requires 0 <= k < |w| => if Mover(w[k]) then w[k].(action := Some(Nop)) else w[k])
  }
}

=== FILE: movement.dfy ===
/** The first phase of `process_actions`: the movement and melee scan followed
    by the position commit.

    The scan visits the movers in iteration order and writes each mover's
    staged `MovePos` in place, so a later mover is checked against the cells
    earlier movers have already claimed. A mover whose target cell is staged
    by any other blocker does not move, strikes that blocker if it is on
    another team, and has its action downgraded to NOP. */
module Movement {
  import opened EcsTypes
  import opened Geometry

  /** `move_pos`. */
  function MovePos(p: Pos, a: Action): (r: Pos)
    ensures !IsMove(a) ==> r == p
    ensures IsMove(a) ==> DistSq(r, p) == 1
    ensures a.MoveLeft? || a.MoveRight? ==> r.y == p.y
    ensures a.MoveUp? || a.MoveDown? ==> r.x == p.x
    ensures a.MoveLeft? ==> r.x < p.x
    ensures a.MoveRight? ==> r.x > p.x
    ensures a.MoveUp? ==> r.y < p.y
    ensures a.MoveDown? ==> r.y > p.y
  {
    match a
    case MoveLeft => Pos(p.x - 1, p.y)
    case MoveRight => Pos(p.x + 1, p.y)
    case MoveUp => Pos(p.x, p.y - 1)
    case MoveDown => Pos(p.x, p.y + 1)
    case _ => p
  }

  /** Blocker `e` has staged `cell`. */
  predicate Blocks(e: Entity, cell: Pos)
  {
    Blocker(e) && e.movePos == Some(cell)
  }

  /** A blocker after taking `damage` hitpoints. */
  function Struck(e: Entity, damage: int): Entity
    requires e.hp.Some?
  {
    e.(hp := Some(e.hp.value - damage))
  }

  /** Some blocker other than mover `i` has staged `cell`. */
  predicate Blocked(w: seq<Entity>, i: nat, cell: Pos)
  {
    exists k :: 0 <= k < |w| && k != i && Blocks(w[k], cell)
  }

  /** The inner scan over blockers `j..` for mover `i` heading to `cell`:
      strikes every different-team blocker of the cell in place and reports
      whether any blocker was found. */
  function Collide(w: seq<Entity>, i: nat, cell: Pos, j: nat): (r: (seq<Entity>, bool))
    requires i < |w| && j <= |w| && Mover(w[i])
    ensures |r.0| == |w|
    ensures r.1 <==> exists k :: j <= k < |w| && k != i && Blocks(w[k], cell)
    ensures forall k :: 0 <= k < |w| ==>
              r.0[k] == (if j <= k && k != i && Blocks(w[k], cell) && w[k].team != w[i].team
                         then Struck(w[k], w[i].meleeDamage.value) else w[k])
    decreases |w| - j
  {
    if j == |w| then (w, false)
    else
      var hit := j != i && Blocks(w[j], cell);
      var e := if hit && w[j].team != w[i].team then Struck(w[j], w[i].meleeDamage.value) else w[j];
      var w1 := w[j := e];
      var rest := Collide(w1, i, cell, j + 1);
      assert forall k :: j + 1 <= k < |w| ==> w1[k] == w[k];
      (rest.0, hit || rest.1)
  }

  /** `b` differs from `a` at most in hitpoints, pending action and staged
      cell, and carries the same components. */
  predicate SameButScan(a: Entity, b: Entity)
  {
    && b.(hp := a.hp, action := a.action, movePos := a.movePos) == a
    && (b.hp.Some? <==> a.hp.Some?)
    && (b.action.Some? <==> a.action.Some?)
    && (b.movePos.Some? <==> a.movePos.Some?)
  }

  /** One iteration of the outer scan: resolve mover `i`. */
  function MoveOne(w: seq<Entity>, i: nat): (r: seq<Entity>)
    requires i < |w|
    ensures |r| == |w|
    ensures forall k :: 0 <= k < |w| ==> SameButScan(w[k], r[k])
    ensures forall k :: 0 <= k < |w| && k != i ==> r[k].movePos == w[k].movePos && r[k].action == w[k].action
    ensures r[i].hp == w[i].hp
    ensures !Mover(w[i]) ==> r == w
    ensures Mover(w[i]) ==>
              var cell := MovePos(w[i].pos, w[i].action.value);
              && (Blocked(w, i, cell) ==> r[i].action == Some(Nop) && r[i].movePos == w[i].movePos)
              && (!Blocked(w, i, cell) ==> r[i].movePos == Some(cell) && r[i].action == w[i].action)
              && (forall k :: 0 <= k < |w| && k != i ==>
                    r[k].hp == (if Blocks(w[k], cell) && w[k].team != w[i].team
                                then Some(w[k].hp.value - w[i].meleeDamage.value) else w[k].hp))
  {
    if !Mover(w[i]) then w
    else
      var cell := MovePos(w[i].pos, w[i].action.value);
      var c := Collide(w, i, cell, 0);
      if c.1 then c.0[i := c.0[i].(action := Some(Nop))]
      else c.0[i := c.0[i].(movePos := Some(cell))]
  }

  /** Staged cells are pairwise distinct. */
  ghost predicate StagedDistinct(w: seq<Entity>)
  {
    forall a, b :: 0 <= a < |w| && 0 <= b < |w| && a != b && w[a].movePos.Some? ==> w[a].movePos != w[b].movePos
  }

  /** Every entity that stages a cell is also a blocker (carries Hitpoints and
      Team), as every archetype with a MovePos does. */
  ghost predicate StagersBlock(w: seq<Entity>)
  {
    forall a :: 0 <= a < |w| && w[a].movePos.Some? ==> Blocker(w[a])
  }

  lemma MoveOneKeepsDistinct(w: seq<Entity>, i: nat)
    requires i < |w|
    ensures StagedDistinct(w) && StagersBlock(w) ==> StagedDistinct(MoveOne(w, i)) && StagersBlock(MoveOne(w, i))
  {
    if !(StagedDistinct(w) && StagersBlock(w)) {
      return;
    }
    var r := MoveOne(w, i);
    forall a, b | 0 <= a < |r| && 0 <= b < |r| && a != b && r[a].movePos.Some?
      ensures r[a].movePos != r[b].movePos
    {
      if Mover(w[i]) {
        var cell := MovePos(w[i].pos, w[i].action.value);
        if !Blocked(w, i, cell) {
          if a == i {
            assert !Blocks(w[b], cell);
          } else if b == i {
            assert !Blocks(w[a], cell);
          }
        }
      }
    }
  }

  /** The outer scan over movers `i..`. */
  function MoveScan(w: seq<Entity>, i: nat): (r: seq<Entity>)
    requires i <= |w|
    ensures |r| == |w|
    ensures forall k :: 0 <= k < |w| ==> SameButScan(w[k], r[k])
    ensures forall k :: 0 <= k < i ==> r[k].movePos == w[k].movePos && r[k].action == w[k].action
    ensures StagedDistinct(w) && StagersBlock(w) ==> StagedDistinct(r) && StagersBlock(r)
    decreases |w| - i
  {
    if i == |w| then w
    else
      var w1 := MoveOne(w, i);
      MoveOneKeepsDistinct(w, i);
      MoveScan(w1, i + 1)
  }

  /** A mover never claims the cell a LATER entity had staged when the scan
      began: at the time it is resolved, that entity's stage is still in
      place and blocks it. */
  lemma {:induction false} NeverIntoLaterStage(w: seq<Entity>, i: nat, lo: nat, hi: nat)
    requires i <= lo < hi < |w|
    requires StagedDistinct(w) && StagersBlock(w)
    requires w[hi].movePos.Some?
    ensures MoveScan(w, i)[lo].movePos != w[hi].movePos
    decreases |w| - i
  {
    var w1 := MoveOne(w, i);
    MoveOneKeepsDistinct(w, i);
    assert MoveScan(w, i) == MoveScan(w1, i + 1);
    if lo == i {
      assert MoveScan(w1, i + 1)[i].movePos == w1[i].movePos;
      if Mover(w[i]) {
        var cell := MovePos(w[i].pos, w[i].action.value);
        if !Blocked(w, i, cell) {
          assert !Blocks(w[hi], cell);
        }
      }
    } else {
      assert w1[hi].movePos == w[hi].movePos;
      NeverIntoLaterStage(w1, i + 1, lo, hi);
    }
  }

  /** No two entities swap cells in one scan. */
  lemma NoSwap(w: seq<Entity>, a: nat, b: nat)
    requires a < |w| && b < |w| && a != b
    requires StagedDistinct(w) && StagersBlock(w)
    requires w[a].movePos.Some? && w[b].movePos.Some?
    ensures !(MoveScan(w, 0)[a].movePos == w[b].movePos && MoveScan(w, 0)[b].movePos == w[a].movePos)
  {
    if a < b {
      NeverIntoLaterStage(w, 0, a, b);
    } else {
      NeverIntoLaterStage(w, 0, b, a);
    }
  }

  /** `pos = mpos` for every mover. */
  function Commit(w: seq<Entity>): (r: seq<Entity>)
    ensures |r| == |w|
    ensures forall k :: 0 <= k < |w| && Mover(w[k]) ==> r[k] == w[k].(pos := w[k].movePos.value)
    ensures forall k :: 0 <= k < |w| && !Mover(w[k]) ==> r[k] == w[k]
  {
    seq(|w|, k requires 0 <= k < |w| => if Mover(w[k]) then w[k].(pos := w[k].movePos.value) else w[k])
  }

  /** The whole first phase. */
  function MovementPhase(w: seq<Entity>): (r: seq<Entity>)
    ensures |r| == |w|
    ensures forall k :: 0 <= k < |w| ==> (Mover(r[k]) <==> Mover(w[k]))
    ensures forall k :: 0 <= k < |w| && Mover(r[k]) ==> Some(r[k].pos) == r[k].movePos
    ensures forall k :: 0 <= k < |w| && !Mover(w[k]) ==> r[k].pos == w[k].pos
    ensures forall k :: 0 <= k < |w| ==> r[k].team == w[k].team && (r[k].hp.Some? <==> w[k].hp.Some?)
    ensures forall k :: 0 <= k < |w| ==>
              r[k].(pos := w[k].pos, hp := w[k].hp, action := w[k].action, movePos := w[k].movePos) == w[k]
  {
    Commit(MoveScan(w, 0))
  }

  /** After the commit no two movers share a cell, provided the staged cells
      were distinct and every stager is a blocker when the scan began. */
  lemma MoversEndOnDistinctCells(w: seq<Entity>)
    requires StagedDistinct(w) && StagersBlock(w)
    ensures var r := MovementPhase(w);
            forall a, b :: 0 <= a < |r| && 0 <= b < |r| && a != b && Mover(r[a]) && Mover(r[b]) ==> r[a].pos != r[b].pos
  {
    var s := MoveScan(w, 0);
    var r := MovementPhase(w);
    forall a, b | 0 <= a < |r| && 0 <= b < |r| && a != b && Mover(r[a]) && Mover(r[b])
      ensures r[a].pos != r[b].pos
    {
      assert Mover(s[a]) && Mover(s[b]);
      assert s[a].movePos != s[b].movePos;
    }
  }

  /** An entity whose stage is its own cell and whose action is not a move
      keeps its action through its own step of the scan, when stages are
      distinct. */
  lemma IdleMoverNotDowngraded(w: seq<Entity>, i: nat)
    requires i < |w| && Mover(w[i]) && StagedDistinct(w)
    requires w[i].movePos == Some(w[i].pos) && !IsMove(w[i].action.value)
    ensures MoveOne(w, i)[i].action == w[i].action
  {
    assert MovePos(w[i].pos, w[i].action.value) == w[i].pos;
  }
}

=== FILE: scenarios.dfy ===
/** The entity factories of `roguelike.cpp` as fixture data, the initial
    world `init_roguelike` builds, and small worked turns through the
    phases. Colours, textures and state machines are not part of the
    entity record. The order of the initial world is creation order. */
module Scenarios {
  import opened EcsTypes
  import opened Geometry
  import opened Movement
  import opened Effects
  import opened Lifecycle
  import opened Turn

  /** An entity with only a cell, the base of every factory. */
  function Bare(x: int, y: int): Entity
  {
    Entity(
      pos := Pos(x, y), movePos := None, patrolPos := None, hp := None, action := None, team := None,
      meleeDamage := None, rangedDamage := None, rangedRange := None, healAmount := None,
      healRange := None, healCooldown := None, numActions := None, mobType := None,
      powerupAmount := None, isPlayer := false, isPickup := false, isMob := false)
  }

  /** The fields every mob factory sets: staged and anchored on its own
      cell, idle, one action per turn. */
  function Mob(x: int, y: int, hp: int, team: int, melee: int, kind: MobType): Entity
  {
    Bare(x, y).(movePos := Some(Pos(x, y)), patrolPos := Some(Pos(x, y)), hp := Some(hp),
                action := Some(Nop), team := Some(team), meleeDamage := Some(melee),
                numActions := Some(Quota(1, 0)), mobType := Some(kind), isMob := true)
  }

  /** A freshly created mob: a mover and blocker, idle, standing, staged
      and anchored on its own cell, with an in-range quota of one action. */
  predicate FreshMob(e: Entity, x: int, y: int)
  {
    Mover(e) && Blocker(e) && !e.isPlayer && !e.isPickup && e.pos == Pos(x, y)
    && e.movePos == Some(e.pos) && e.patrolPos == Some(e.pos) && e.action == Some(Nop)
    && e.numActions == Some(Quota(1, 0)) && QuotaInRange(e.numActions.value)
  }

  /** `create_monster`: a melee mob that neither heals nor shoots. */
  function Monster(x: int, y: int): (e: Entity)
    ensures FreshMob(e, x, y) && !HealerQ(e) && !ArcherQ(e)
  {
    Mob(x, y, 100, 1, 20, Human)
  }

  /** `create_archer`: shoots other teams once it attacks, not before. */
  function Archer(x: int, y: int): (e: Entity)
    ensures FreshMob(e, x, y) && ArcherQ(e) && !HealerQ(e)
    ensures EmitterOf(Ranged, e).None? && EmitterOf(Ranged, e.(action := Some(Attack))).Some?
  {
    Mob(x, y, 100, 1, 0, MobType.Archer).(rangedDamage := Some(10), rangedRange := Some(5))
  }

  /** `create_healer`: a healer of team 0, the player's team, whose
      cooldown keeps it from healing on its first tick. */
  function Healer(x: int, y: int): (e: Entity)
    ensures FreshMob(e, x, y) && HealerQ(e) && !ArcherQ(e) && e.team == Some(0)
    ensures EmitterOf(Healing, e.(action := Some(Heal))).None?
  {
    Mob(x, y, 100, 0, 20, MobType.Healer).(healAmount := Some(15), healRange := Some(1),
                                           healCooldown := Some(Cooldown(5, 5)))
  }

  /** `create_player`: two actions per NPC turn, no patrol anchor. */
  function Player(x: int, y: int): (e: Entity)
    ensures Mover(e) && Blocker(e) && CollectorQ(e) && QuotaHolder(e) && !e.isPickup
    ensures e.pos == Pos(x, y) && e.movePos == Some(e.pos) && e.patrolPos.None? && e.action == Some(Nop)
    ensures QuotaInRange(e.numActions.value) && e.numActions.value.numActions == 2
  {
    Bare(x, y).(movePos := Some(Pos(x, y)), hp := Some(100), action := Some(Nop), isPlayer := true,
                team := Some(0), numActions := Some(Quota(2, 0)), meleeDamage := Some(50), isMob := true)
  }

  /** `create_heal`: a pickup nothing moves into, strikes or heals. */
  function HealPickup(x: int, y: int, amount: int): (e: Entity)
    ensures HealPickupQ(e) && !PowerupQ(e) && e.healAmount == Some(amount) && e.pos == Pos(x, y)
    ensures !Mover(e) && !Blocker(e) && !Combatant(e) && !CollectorQ(e) && !HealerQ(e)
  {
    Bare(x, y).(healAmount := Some(amount), isPickup := true)
  }

  /** `create_powerup`: a pickup nothing moves into, strikes or heals. */
  function Powerup(x: int, y: int, amount: int): (e: Entity)
    ensures PowerupQ(e) && !HealPickupQ(e) && e.powerupAmount == Some(amount) && e.pos == Pos(x, y)
    ensures !Mover(e) && !Blocker(e) && !Combatant(e) && !CollectorQ(e)
  {
    Bare(x, y).(powerupAmount := Some(amount), isPickup := true)
  }

  /** The world `init_roguelike` builds: three mobs, the one player, and two
      pickups, every other entity a mover and blocker. */
  function InitialWorld(): (w: seq<Entity>)
    ensures |w| == 6
    ensures forall k :: 0 <= k < |w| ==> (w[k].isPlayer <==> k == 3)
    ensures forall k :: 0 <= k < |w| ==> (w[k].isPickup <==> k >= 4)
    ensures forall k :: 0 <= k < |w| && !w[k].isPickup ==> Mover(w[k]) && Blocker(w[k])
  {
    [Archer(-5, -10), Healer(3, 3), NewSlime(-3, -3), Player(0, 0), Powerup(7, 7, 10), HealPickup(-5, 5, 50)]
  }

  /** The initial world meets the preconditions of the movement theorems:
      staged cells are distinct and every stager is a blocker. */
  lemma InitialStagesDistinct()
    ensures StagedDistinct(InitialWorld()) && StagersBlock(InitialWorld())
  {
    var w := InitialWorld();
    assert forall k :: 0 <= k < |w| ==> w[k].movePos == (if k < 4 then Some(w[k].pos) else None);
  }

  /** The initial world meets the preconditions of the turn theorems. */
  lemma InitialHealsAndQuotas()
    ensures NonNegHeals(InitialWorld()) && QuotasNonZero(InitialWorld())
  {
  }

  /** Until the player picks an action, a turn changes nothing. */
  lemma InitialWorldIdle(plan: seq<Entity> -> seq<Entity>)
    ensures QuotasNonZero(InitialWorld())
    ensures ProcessTurn(InitialWorld(), plan) == InitialWorld()
  {
    InitialHealsAndQuotas();
    var w := InitialWorld();
    assert LastActingPlayer(w, |w|) == Some(3);
  }

  /** Bumping into an enemy: the player, one cell left of a monster, moves
      right; the monster's staged cell blocks it, so the player stays, its
      action becomes NOP and the monster loses the player's melee damage. */
  lemma MeleeExample()
    ensures var w := [Player(0, 0).(action := Some(MoveRight)), Monster(1, 0)];
            var r := MovementPhase(w);
            && r[0].pos == Pos(0, 0) && r[0].action == Some(Nop)
            && r[1].pos == Pos(1, 0) && r[1].hp == Some(50) && r[0].hp == Some(100)
  {
    var w := [Player(0, 0).(action := Some(MoveRight)), Monster(1, 0)];
    var s2 := MeleeScan(w);
    assert MovementPhase(w) == Commit(s2);
  }

  /** The first mover of the melee example bumps into the monster. */
  lemma MeleeBump(w: seq<Entity>)
    requires w == [Player(0, 0).(action := Some(MoveRight)), Monster(1, 0)]
    ensures var s1 := MoveOne(w, 0);
            && |s1| == 2 && Mover(s1[0]) && Mover(s1[1])
            && s1[0].movePos == Some(Pos(0, 0)) && s1[0].action == Some(Nop) && s1[0].hp == Some(100)
            && s1[1].movePos == Some(Pos(1, 0)) && s1[1].action == Some(Nop) && s1[1].hp == Some(50)
            && s1[0].pos == Pos(0, 0) && s1[1].pos == Pos(1, 0)
  {
    assert Blocks(w[1], Pos(1, 0));
    assert Blocked(w, 0, Pos(1, 0));
  }

  /** The whole melee scan: the monster's idle turn changes nothing more. */
  lemma MeleeScan(w: seq<Entity>) returns (s2: seq<Entity>)
    requires w == [Player(0, 0).(action := Some(MoveRight)), Monster(1, 0)]
    ensures s2 == MoveScan(w, 0)
    ensures |s2| == 2 && Mover(s2[0]) && Mover(s2[1])
    ensures s2[0].movePos == Some(Pos(0, 0)) && s2[0].action == Some(Nop) && s2[0].hp == Some(100)
    ensures s2[1].movePos == Some(Pos(1, 0)) && s2[1].hp == Some(50)
  {
    MeleeBump(w);
    var s1 := MoveOne(w, 0);
    assert MovePos(s1[1].pos, Nop) == Pos(1, 0);
    assert !Blocks(s1[0], Pos(1, 0));
    assert !Blocked(s1, 1, Pos(1, 0));
    s2 := MoveOne(s1, 1);
    assert MoveScan(s2, 2) == s2;
    assert MoveScan(w, 0) == MoveScan(s1, 1);
  }


  /** A ready healer on a cell next to its player heals both of them by 15
      and restarts its cooldown at 5. */
  lemma HealingExample()
    ensures var w := [Healer(0, 0).(action := Some(Heal), healCooldown := Some(Cooldown(0, 5))),
                      Player(1, 0).(hp := Some(50))];
            var r := HealingPhase(w);
            && r[1].hp == Some(65) && r[0].hp == Some(115)
            && r[0].healCooldown == Some(Cooldown(5, 5))
  {
    var w := [Healer(0, 0).(action := Some(Heal), healCooldown := Some(Cooldown(0, 5))),
              Player(1, 0).(hp := Some(50))];
    assert EmitterOf(Healing, w[1]).None?;
    SingleHealer(w, 0);
    assert InRange(w[0].pos, w[1].pos, 1);
    assert InRange(w[0].pos, w[0].pos, 1);
    assert Heals(w, 0);
    HealCooldownTicks(w, 0);
  }

  /** A healer with a cooldown still running heals nobody; the cooldown
      just counts down. */
  lemma HealerWaitsExample()
    ensures var w := [Healer(0, 0).(action := Some(Heal)), Player(1, 0).(hp := Some(50))];
            var r := HealingPhase(w);
            && r[1].hp == Some(50) && r[0].hp == Some(100)
            && r[0].healCooldown == Some(Cooldown(4, 5))
  {
    var w := [Healer(0, 0).(action := Some(Heal)), Player(1, 0).(hp := Some(50))];
    assert EmitterOf(Healing, w[1]).None?;
    SingleHealer(w, 0);
    HealCooldownTicks(w, 0);
  }

  /** A spawning slime at (2, 2) gains an offspring at (1, 1). */
  lemma SpawnExample()
    ensures var parent := NewSlime(2, 2).(action := Some(Spawn));
            SpawnPhase([parent]) == [parent, NewSlime(1, 1)]
  {
    var parent := NewSlime(2, 2).(action := Some(Spawn));
    assert SpawnsSlime(parent);
    assert Offspring([parent], 0) == [NewSlime(1, 1)];
  }

  /** The player on a 20-point heal pickup ends with 100 hitpoints and the
      pickup is gone. */
  lemma PickupExample()
    ensures var w := [Player(5, 5).(hp := Some(80)), HealPickup(5, 5, 20)];
            PickupPhase(w) == [Player(5, 5)]
  {
    var w := [Player(5, 5).(hp := Some(80)), HealPickup(5, 5, 20)];
    assert HealPickupSum(w, Pos(5, 5), 2) == 0 && PowerupSum(w, Pos(5, 5), 2) == 0;
    assert HealPickupSum(w, Pos(5, 5), 1) == 20 && PowerupSum(w, Pos(5, 5), 1) == 0;
    assert HealPickupSum(w, Pos(5, 5), 0) == 20 && PowerupSum(w, Pos(5, 5), 0) == 0;
    var c := CollectFrom(w, 0);
    assert c[0] == Player(5, 5);
    assert c[1] == w[1];
    assert CollectorCells(w) == {Pos(5, 5)} by {
      OneCollectorCell(w, 0);
    }
    assert c == [c[0], c[1]];
    assert Sweep(c, {Pos(5, 5)}) == [Player(5, 5)] by {
      var cells := {Pos(5, 5)};
      assert c[1..] == [c[1]] && c[1..][1..] == [];
      assert Sweep(c[1..][1..], cells) == [];
      assert TakenAt(c[1], cells);
      assert Sweep(c[1..], cells) == [];
      assert !TakenAt(c[0], cells);
    }
  }
  /** Two players share a cell holding a 20-point heal. The one at 80
      hitpoints collects into exactly the record of the one at 100, so that
      record legitimately survives the phase although its own player
      collected too. */
  lemma SharedCellCollectedRecord()
    ensures var w := [Player(5, 5).(hp := Some(80)), Player(5, 5), HealPickup(5, 5, 20)];
            Collected(w, 0) == w[1] && Collected(w, 1) != w[1] && w[1] in PickupPhase(w)
  {
    var w := [Player(5, 5).(hp := Some(80)), Player(5, 5), HealPickup(5, 5, 20)];
    assert HealPickupSum(w, Pos(5, 5), 3) == 0 && PowerupSum(w, Pos(5, 5), 3) == 0;
    assert HealPickupSum(w, Pos(5, 5), 2) == 20 && PowerupSum(w, Pos(5, 5), 2) == 0;
    assert HealPickupSum(w, Pos(5, 5), 1) == 20 && PowerupSum(w, Pos(5, 5), 1) == 0;
    assert HealPickupSum(w, Pos(5, 5), 0) == 20 && PowerupSum(w, Pos(5, 5), 0) == 0;
    var p := Player(5, 5);
    assert w[1] == p && w[0] == p.(hp := Some(80));
    assert Collected(w, 0) == p.(hp := Some(100), meleeDamage := Some(50));
    assert Collected(w, 0) == p;
    assert Collected(w, 1).hp == Some(120);
    CollectorGains(w, 0);
  }

}

=== FILE: steering.dfy ===
/** How the AI's chosen movement codes play out once `move_pos` applies them:
    the step rule closes the gap to its target, its inverse opens it, and
    inverting a code undoes its step. */
module Steering {
  import opened EcsTypes
  import opened Geometry
  import opened AiLibrary
  import opened Movement

  /** Applying a move and then its inverse returns to the start cell. */
  lemma InverseUndoesStep(p: Pos, a: Action)
    ensures MovePos(MovePos(p, a), InverseMove(a)) == p
  {
  }

  /** `Sqr` grows with the absolute value. */
  lemma SqrAbsMonotone(a: int, b: int)
    requires Abs(a) < Abs(b)
    ensures Sqr(a) < Sqr(b)
  {
    var u := Abs(a);
    var v := Abs(b);
    assert Sqr(a) == u * u;
    assert Sqr(b) == v * v;
    MulLeft(u, u, v);
    MulLeft(v, u, v);
    assert u * v < v * v;
  }

  /** Multiplying by a non-negative factor keeps order; by a positive one,
      strict order. */
  lemma {:induction false} MulLeft(c: int, a: int, b: int)
    requires c >= 0 && a < b
    ensures c * a <= c * b
    ensures c > 0 ==> c * a < c * b
    decreases c
  {
    if c > 0 {
      MulLeft(c - 1, a, b);
      assert c * a == (c - 1) * a + a;
      assert c * b == (c - 1) * b + b;
    }
  }

  /** The towards-step strictly shortens the distance to a different cell. */
  lemma StepApproaches(from: Pos, to: Pos)
    requires from != to
    ensures DistSq(MovePos(from, MoveTowards(from, to)), to) < DistSq(from, to)
  {
    var next := MovePos(from, MoveTowards(from, to));
    var dx := from.x - to.x;
    var dy := from.y - to.y;
    if Abs(dx) > Abs(dy) {
      assert next.y == from.y;
      SqrAbsMonotone(next.x - to.x, dx);
    } else {
      assert next.x == from.x;
      assert dy != 0;
      SqrAbsMonotone(next.y - to.y, dy);
    }
  }

  /** The flee step, the inverse of the towards-step, strictly lengthens the
      distance, even when subject and enemy share a cell. */
  lemma FleeRetreats(from: Pos, to: Pos)
    ensures DistSq(MovePos(from, InverseMove(MoveTowards(from, to))), to) > DistSq(from, to)
  {
    var next := MovePos(from, InverseMove(MoveTowards(from, to)));
    var dx := from.x - to.x;
    var dy := from.y - to.y;
    if Abs(dx) > Abs(dy) {
      assert next.y == from.y;
      SqrAbsMonotone(dx, next.x - to.x);
    } else {
      assert next.x == from.x;
      SqrAbsMonotone(dy, next.y - to.y);
    }
  }

  /** A patroller outside its range walks back towards its anchor. */
  lemma PatrolRecovers(w: seq<Entity>, self: nat, d: int, roll: int)
    requires self < |w| && CanAct(Patrol(d), w[self])
    requires !InRange(w[self].pos, w[self].patrolPos.value, d)
    requires w[self].pos != w[self].patrolPos.value
    ensures var next := MovePos(w[self].pos, Act(Patrol(d), w, self, roll));
            DistSq(next, w[self].patrolPos.value) < DistSq(w[self].pos, w[self].patrolPos.value)
  {
    StepApproaches(w[self].pos, w[self].patrolPos.value);
  }
}

=== FILE: turn.dfy ===
/** `process_turn`: the turn only happens once the player has chosen an
    action; the player's action quota decides whether the non-player
    characters plan first; then `process_actions` runs its phases in order. */
module Turn {
  import opened EcsTypes
  import opened Geometry
  import opened Movement
  import opened Effects
  import opened Lifecycle

  // ---------------------------------------------------------------------
  // Has the player acted?
  // ---------------------------------------------------------------------

  /** A player carrying an Action: the query of `is_player_acted`. */
  predicate ActingPlayer(e: Entity)
  {
    e.isPlayer && e.action.Some?
  }

  /** The last acting player among the first `n` entities. */
  function LastActingPlayer(w: seq<Entity>, n: nat): (r: Option<nat>)
    requires n <= |w|
    ensures r.None? <==> forall k :: 0 <= k < n ==> !ActingPlayer(w[k])
    ensures r.Some? ==> r.value < n && ActingPlayer(w[r.value])
    ensures r.Some? ==> forall k :: r.value < k < n ==> !ActingPlayer(w[k])
  {
    if n == 0 then None
    else if ActingPlayer(w[n - 1]) then Some(n - 1)
    else LastActingPlayer(w, n - 1)
  }

  /** `is_player_acted`: every player overwrites the flag in turn, so the
      last one in iteration order decides; no player means no turn. */
  function PlayerActed(w: seq<Entity>): (r: bool)
    ensures r ==> exists k :: 0 <= k < |w| && ActingPlayer(w[k]) && w[k].action.value != Nop
    ensures ((exists k :: 0 <= k < |w| && ActingPlayer(w[k]))
             && (forall k :: 0 <= k < |w| && ActingPlayer(w[k]) ==> w[k].action.value != Nop))
            ==> r
  {
    match LastActingPlayer(w, |w|)
    case None => false
    case Some(k) => w[k].action.value != Nop
  }

  /** The flag holds exactly when some acting player has a pending action
      other than NOP and no acting player follows it. */
  lemma PlayerActedIff(w: seq<Entity>)
    ensures PlayerActed(w) <==>
            exists k :: 0 <= k < |w| && ActingPlayer(w[k]) && w[k].action.value != Nop
                        && forall j :: k < j < |w| ==> !ActingPlayer(w[j])
  {
    match LastActingPlayer(w, |w|)
    case None =>
    case Some(p) =>
      if PlayerActed(w) {
        assert ActingPlayer(w[p]) && w[p].action.value != Nop;
      }
  }

  /** With a single player, the turn happens exactly when its action is not
      NOP. */
  lemma SinglePlayerActed(w: seq<Entity>, p: nat)
    requires p < |w| && ActingPlayer(w[p])
    requires forall k :: 0 <= k < |w| && k != p ==> !w[k].isPlayer
    ensures PlayerActed(w) <==> w[p].action.value != Nop
  {
    assert LastActingPlayer(w, |w|) == Some(p);
  }

  // ---------------------------------------------------------------------
  // The action quota
  // ---------------------------------------------------------------------

  /** C++ `/` on `int`: the quotient truncates toward zero. */
  function TruncQuot(a: int, b: int): int
    requires b != 0
  {
    var q := if a >= 0 then a / Abs(b) else -((-a) / Abs(b));
    if b < 0 then -q else q
  }

  /** C++ `%` on `int`: the remainder of the truncating division, so it
      takes the sign of the dividend. */
  function TruncRem(a: int, b: int): (r: int)
    requires b != 0
    ensures a >= 0 ==> 0 <= r < Abs(b)
    ensures a < 0 ==> -(Abs(b) as int) < r <= 0
  {
    if a >= 0 then a % Abs(b) else -((-a) % Abs(b))
  }

  /** The identity C++ guarantees for its integer division:
      `(a / b) * b + a % b == a`. */
  lemma TruncDivision(a: int, b: int)
    requires b != 0
    ensures TruncQuot(a, b) * b + TruncRem(a, b) == a
  {
    var m := Abs(b);
    var u := if a >= 0 then a else -a;
    assert u == (u / m) * m + u % m;
    if b < 0 {
      assert TruncQuot(a, b) * b == (if a >= 0 then (u / m) * m else -((u / m) * m));
    } else {
      assert TruncQuot(a, b) * b == (if a >= 0 then (u / m) * m else -((u / m) * m));
    }
  }

  /** On a non-negative dividend and a positive divisor the two remainders
      agree; on a negative dividend they need not. */
  lemma TruncRemAgreement(a: int, b: int)
    requires b > 0
    ensures a >= 0 ==> TruncRem(a, b) == a % b
    ensures TruncRem(-3, 2) == -1 && (-3) % 2 == 1
  {
  }

  /** A player that counts its actions: the query of
      `upd_player_actions_count`. */
  predicate QuotaHolder(e: Entity)
  {
    e.isPlayer && e.numActions.Some?
  }

  /** The division in `upd_player_actions_count` is defined. */
  predicate QuotasNonZero(w: seq<Entity>)
  {
    forall k :: 0 <= k < |w| && QuotaHolder(w[k]) ==> w[k].numActions.value.numActions != 0
  }

  /** A quota is in range when its counter lies in `0..numActions`. */
  predicate QuotaInRange(q: Quota)
  {
    0 <= q.curActions < q.numActions
  }

  /** One tick of the quota counter. */
  function Advance(q: Quota): (r: Quota)
    requires q.numActions != 0
    ensures r.numActions == q.numActions
    ensures QuotaInRange(q) ==> QuotaInRange(r)
    ensures QuotaInRange(q) ==> (r.curActions == 0 <==> q.curActions + 1 == q.numActions)
    ensures QuotaInRange(q) && r.curActions != 0 ==> r.curActions == q.curActions + 1
  {
    q.(curActions := TruncRem(q.curActions + 1, q.numActions))
  }

  function AdvanceN(q: Quota, n: nat): Quota
    requires q.numActions != 0
  {
    if n == 0 then q else Advance(AdvanceN(q, n - 1))
  }

  /** From an in-range start, `n` ticks leave the counter at the start plus
      `n`, modulo the quota. */
  lemma {:induction false} AdvanceCycle(q: Quota, n: nat)
    requires q.numActions != 0 && QuotaInRange(q)
    ensures AdvanceN(q, n).numActions == q.numActions
    ensures AdvanceN(q, n).curActions == (q.curActions + n) % q.numActions
  {
    if n > 0 {
      AdvanceCycle(q, n - 1);
      var prev := AdvanceN(q, n - 1);
      var m := q.numActions;
      assert prev.curActions == (q.curActions + n - 1) % m;
      assert QuotaInRange(prev);
      ModSucc(q.curActions + n - 1, m);
    }
  }

  /** Euclidean division is unique. */
  lemma ModUnique(x: int, m: int, q: int, r: int)
    requires m > 0 && 0 <= r < m && x == q * m + r
    ensures x % m == r
  {
    var q' := x / m;
    var r' := x % m;
    assert x == q' * m + r';
    assert (q - q') * m == r' - r;
    if q > q' {
      MulAtLeast(q - q', m);
    } else if q < q' {
      MulAtLeast(q' - q, m);
    }
  }

  lemma MulAtLeast(d: int, m: int)
    requires d >= 1 && m > 0
    ensures d * m >= m
  {
    assert d * m == (d - 1) * m + m;
  }

  /** Successor modulo `m`. */
  lemma ModSucc(a: int, m: int)
    requires a >= 0 && m > 0
    ensures (a + 1) % m == (if a % m + 1 == m then 0 else a % m + 1)
  {
    var q := a / m;
    var s := a % m;
    assert a == q * m + s;
    if s + 1 == m {
      ModUnique(a + 1, m, q + 1, 0);
    } else {
      ModUnique(a + 1, m, q, s + 1);
    }
  }

  /** Starting from zero, the quota reports a wrap on its `n`-th tick exactly
      when `n` is a multiple of the quota: the NPCs plan on every
      `numActions`-th player action. */
  lemma WrapsEveryQuota(q: Quota, n: nat)
    requires q.numActions > 0 && q.curActions == 0 && n > 0
    ensures AdvanceN(q, n).curActions == 0 <==> n % q.numActions == 0
  {
    AdvanceCycle(q, n);
  }

  /** The player's quota of two: the NPCs plan on every second player
      action. */
  lemma QuotaTwoEverySecond(n: nat)
    requires n > 0
    ensures AdvanceN(Quota(2, 0), n).curActions == 0 <==> n % 2 == 0
  {
    WrapsEveryQuota(Quota(2, 0), n);
  }

  /** `upd_player_actions_count` over entities `j..`: every quota holder
      ticks; the result reports whether any of them wrapped. */
  function CountFrom(w: seq<Entity>, j: nat): (r: (seq<Entity>, bool))
    requires j <= |w| && QuotasNonZero(w)
    ensures |r.0| == |w|
    ensures r.1 <==> exists k :: j <= k < |w| && QuotaHolder(w[k]) && Advance(w[k].numActions.value).curActions == 0
    ensures forall k :: 0 <= k < |w| ==>
              r.0[k] == (if j <= k && QuotaHolder(w[k]) then w[k].(numActions := Some(Advance(w[k].numActions.value))) else w[k])
    decreases |w| - j
  {
    if j == |w| then (w, false)
    else
      var wraps := QuotaHolder(w[j]) && Advance(w[j].numActions.value).curActions == 0;
      var e := if QuotaHolder(w[j]) then w[j].(numActions := Some(Advance(w[j].numActions.value))) else w[j];
      var w1 := w[j := e];
      assert forall k :: j + 1 <= k < |w| ==> w1[k] == w[k];
      var rest := CountFrom(w1, j + 1);
      (rest.0, wraps || rest.1)
  }

  /** With one player whose counter is in range, the NPCs plan exactly when
      this action completes the quota. */
  lemma SinglePlayerPlans(w: seq<Entity>, p: nat)
    requires p < |w| && QuotaHolder(w[p]) && QuotaInRange(w[p].numActions.value)
    requires forall k :: 0 <= k < |w| && k != p ==> !w[k].isPlayer
    ensures QuotasNonZero(w)
    ensures CountFrom(w, 0).1 <==> w[p].numActions.value.curActions + 1 == w[p].numActions.value.numActions
  {
  }

  // ---------------------------------------------------------------------
  // The turn
  // ---------------------------------------------------------------------

  /** `process_actions`: movement and melee, healing, ranged attacks,
      spawning, death cleanup, pickups, and the reset of pending actions. */
  function ProcessActions(w: seq<Entity>): (r: seq<Entity>)
    ensures forall k :: 0 <= k < |r| && Mover(r[k]) ==> r[k].action == Some(Nop)
  {
    ResetActions(PickupPhase(Cleanup(SpawnPhase(RangedPhase(HealingPhase(MovementPhase(w)))))))
  }

  /** The planning step (`StateMachine::act` over every entity with a state
      machine) writes pending actions and nothing else. */
  ghost predicate PlansActionsOnly(plan: seq<Entity> -> seq<Entity>)
  {
    forall x: seq<Entity> :: |plan(x)| == |x| && forall k :: 0 <= k < |x| ==> plan(x)[k].(action := x[k].action) == x[k]
  }

  /** `process_turn`, with the planning step as a parameter. */
  function ProcessTurn(w: seq<Entity>, plan: seq<Entity> -> seq<Entity>): (r: seq<Entity>)
    requires PlayerActed(w) ==> QuotasNonZero(w)
    ensures !PlayerActed(w) ==> r == w
    ensures PlayerActed(w) ==> forall k :: 0 <= k < |r| && Mover(r[k]) ==> r[k].action == Some(Nop)
  {
    if !PlayerActed(w) then w
    else
      var counted := CountFrom(w, 0);
      ProcessActions(if counted.1 then plan(counted.0) else counted.0)
  }

  /** The planner is consulted only on the turn that completes a quota:
      otherwise any two planners give the same turn. */
  lemma PlannerOnlyOnWrap(w: seq<Entity>, plan1: seq<Entity> -> seq<Entity>, plan2: seq<Entity> -> seq<Entity>)
    requires QuotasNonZero(w)
    requires !CountFrom(w, 0).1
    ensures ProcessTurn(w, plan1) == ProcessTurn(w, plan2)
  {
  }

  // ---------------------------------------------------------------------
  // Nobody is left dead
  // ---------------------------------------------------------------------

  /** Every heal pickup heals by a non-negative amount. */
  predicate NonNegHeals(w: seq<Entity>)
  {
    forall e :: e in w && HealPickupQ(e) ==> e.healAmount.value >= 0
  }

  lemma MovementKeepsHeals(w: seq<Entity>)
    requires NonNegHeals(w)
    ensures NonNegHeals(MovementPhase(w))
  {
    var r := MovementPhase(w);
    forall e | e in r && HealPickupQ(e)
      ensures e.healAmount.value >= 0
    {
      var k :| 0 <= k < |r| && r[k] == e;
      assert w[k].isPickup == e.isPickup && w[k].healAmount == e.healAmount;
      assert w[k] in w;
    }
  }

  lemma EffectsKeepHeals(p: Phase, w: seq<Entity>)
    requires NonNegHeals(w)
    ensures NonNegHeals(Scan(p, w, 0))
  {
    var r := Scan(p, w, 0);
    PhaseTouchesOnlyHitpointsAndCooldown(p, w);
    forall e | e in r && HealPickupQ(e)
      ensures e.healAmount.value >= 0
    {
      var k :| 0 <= k < |r| && r[k] == e;
      assert w[k].isPickup == e.isPickup && w[k].healAmount == e.healAmount;
      assert w[k] in w;
    }
  }

  lemma SpawnKeepsHeals(w: seq<Entity>)
    requires NonNegHeals(w)
    ensures NonNegHeals(SpawnPhase(w))
  {
    var r := SpawnPhase(w);
    forall e | e in r && HealPickupQ(e)
      ensures e.healAmount.value >= 0
    {
      var k :| 0 <= k < |r| && r[k] == e;
      if k < |w| {
        assert r[..|w|][k] == w[k];
        assert w[k] in w;
      }
    }
  }

  /** Every heal-pickup sum is non-negative. */
  lemma {:induction false} HealPickupSumNonNeg(w: seq<Entity>, cell: Pos, j: nat)
    requires NonNegHeals(w) && j <= |w|
    ensures HealPickupSum(w, cell, j) >= 0
    decreases |w| - j
  {
    if j < |w| {
      assert w[j] in w;
      HealPickupSumNonNeg(w, cell, j + 1);
    }
  }

  /** After cleanup nobody is dead, and the pickup phase only adds
      non-negative amounts. */
  lemma PickupKeepsAlive(w: seq<Entity>)
    requires NonNegHeals(w)
    requires forall e :: e in w ==> !Dead(e)
    ensures forall e :: e in PickupPhase(w) ==> !Dead(e)
  {
    var c := CollectFrom(w, 0);
    forall e | e in PickupPhase(w)
      ensures !Dead(e)
    {
      assert e in c;
      var k :| 0 <= k < |c| && c[k] == e;
      assert w[k] in w;
      if CollectorQ(w[k]) {
        HealPickupSumNonNeg(w, w[k].pos, 0);
      }
    }
  }

  /** With non-negative heal pickups, `process_actions` leaves no entity
      with hitpoints at or below zero: the cleanup removes the dead, and
      the only later change to hitpoints is a pickup heal. */
  lemma NoDeadAfterActions(w: seq<Entity>)
    requires NonNegHeals(w)
    ensures forall e :: e in ProcessActions(w) ==> !Dead(e)
  {
    var m := MovementPhase(w);
    MovementKeepsHeals(w);
    var h := HealingPhase(m);
    EffectsKeepHeals(Healing, m);
    var g := RangedPhase(h);
    EffectsKeepHeals(Ranged, h);
    var s := SpawnPhase(g);
    SpawnKeepsHeals(g);
    var c := Cleanup(s);
    assert NonNegHeals(c);
    PickupKeepsAlive(c);
    var p := PickupPhase(c);
    var r := ResetActions(p);
    forall e | e in r
      ensures !Dead(e)
    {
      var k :| 0 <= k < |r| && r[k] == e;
      assert r[k].hp == p[k].hp;
      assert p[k] in p;
    }
  }

  lemma CountKeepsHeals(w: seq<Entity>)
    requires QuotasNonZero(w) && NonNegHeals(w)
    ensures NonNegHeals(CountFrom(w, 0).0)
  {
    var r := CountFrom(w, 0).0;
    forall e | e in r && HealPickupQ(e)
      ensures e.healAmount.value >= 0
    {
      var k :| 0 <= k < |r| && r[k] == e;
      assert w[k] in w;
    }
  }

  lemma PlanKeepsHeals(w: seq<Entity>, plan: seq<Entity> -> seq<Entity>)
    requires PlansActionsOnly(plan) && NonNegHeals(w)
    ensures NonNegHeals(plan(w))
  {
    var r := plan(w);
    forall e | e in r && HealPickupQ(e)
      ensures e.healAmount.value >= 0
    {
      var k :| 0 <= k < |r| && r[k] == e;
      assert r[k].(action := w[k].action) == w[k];
      assert w[k] in w;
    }
  }

  /** A turn that happens leaves nobody dead, for any planner that only
      writes pending actions. */
  lemma NoDeadAfterTurn(w: seq<Entity>, plan: seq<Entity> -> seq<Entity>)
    requires QuotasNonZero(w) && NonNegHeals(w) && PlansActionsOnly(plan)
    requires PlayerActed(w)
    ensures forall e :: e in ProcessTurn(w, plan) ==> !Dead(e)
  {
    var counted := CountFrom(w, 0);
    CountKeepsHeals(w);
    if counted.1 {
      PlanKeepsHeals(counted.0, plan);
      NoDeadAfterActions(plan(counted.0));
    } else {
      NoDeadAfterActions(counted.0);
    }
  }
}
